=== FILE: README.md ===
# aadhar-card: the page logic, in Dafny

The aadhar-card application is a React front end. It makes identity-card style
documents (Aadhaar card, birth certificate) and carries a few utility pages:
two expense ledgers with a spreadsheet export, an admin user list with
its detail dialogs, and two link directories. A hosted backend handles all of
its persistence. Inside the components sit small, deterministic computations.
This project lifts each one out as a pure Dafny function or as a
state-to-state handler, and proves what the page promises about it.

Each handler becomes one state transition. The backend's answer (success or
error) is an input. So are the browser's confirmation dialog, the clock and
`Math.random()`.

| file | module | what it models |
|---|---|---|
| `wrappers.dfy` | `Wrappers` | `Option`: a JavaScript `null`/`undefined` field or a failed lookup |
| `seqs.dfy` | `Seqs` | `Array.prototype.filter` on sequences and its laws |
| `text.dfy` | `Text` | ASCII case mapping, `includes`, `slice` clamping, `padStart`, decimal numerals |
| `js_number.dfy` | `JsNumber` | `parseFloat` and `parseFloat(x) \|\| 0` |
| `ledger_totals.dfy` | `LedgerTotals` | the `{ totalProfit, totalLoss, net }` reduce shared by both ledgers |
| `expenses.dfy` | `Expenses` | a row of the backend `expenses` table |
| `remote_ledger.dfy` | `RemoteLedger` | the backend-backed expense tracker page |
| `local_ledger.dfy` | `LocalLedger` | the browser-only expense tracker page |
| `sheet_export.dfy` | `SheetExport` | `exportToExcel`: grid, per-cell style and format, sheet settings, file name |
| `admin_users.dfy` | `AdminUsers` | admin list: metrics, search, pages, window, initials, balance colour; detail-page handlers |
| `admin_dialogs.dfy` | `AdminDialogs` | the add-balance, status and edit-user dialogs |
| `aadhaar.dfy` | `AadhaarFormat` | "C/O:" address, stored record and card mapping, 4-4-4 grouping, hyphenation, mask |
| `birth_registration.dfy` | `BirthRegistration` | `generateRegistrationNo` |
| `tools_directory.dfy` | `ToolsDirectory` | the tools directory's filter, icon lookup and results line |
| `government_directory.dfy` | `GovernmentDirectory` | the government links directory's filter and categories |

Three behaviours of the code are easy to get wrong, and the model keeps them
as written:

- Profit and loss are not clamped at zero. `parseFloat` keeps a minus sign, so
  a negative amount is stored as typed (`JsNumber.NegativeKept`).
- The export does not rewrite the date column as `dd-mm-yyyy` text. It only
  attaches that number format to the existing text cell, and the cell keeps
  its row style (`SheetExport.DataCellStyled`).
- The tools page's category chips, with their hard-coded counts 24, 6, 8, 5,
  3 and 2, sit inside a commented-out block at
  `src/pages/tools-page/ToolsLinkPage.jsx:141-170`. No chip can be clicked,
  so the selected category stays "all" on the live page. The filter still
  takes the category as a parameter, because its predicate handles one.

## Model

| member | source | states |
|---|---|---|
| Seqs.Filter | src/pages/tools-page/ExpenseTracker.jsx:88-98 | `filter` keeps exactly the elements the predicate accepts, never lengthens the list |
| Seqs.FilterConcat | src/pages/tools-page/ExpenseTracker.jsx:88-98 | filtering distributes over concatenation, so relative order is kept |
| Seqs.FilterIdempotent | src/pages/tools-page/ExpenseTracker.jsx:88-98 | filtering a filtered list again changes nothing |
| Seqs.FilterPartition | src/pages/admin/AdminPage.jsx:60 | the kept and the dropped elements together count the whole list |
| JsNumber.ParseFloat | src/pages/tools-page/ExpenseTracker.jsx:131-132 | `parseFloat` yields a number only when the text holds a digit; otherwise `NaN` |
| JsNumber.BlankPrefixIgnored | src/pages/tools-page/ExpenseTracker.jsx:131-132 | any leading white space that `parseFloat` skips (tab, vertical tab, form feed, the Unicode space separators, the byte-order mark, line terminators) leaves the parse unchanged |
| JsNumber.OrZero | src/pages/tools-page/ExpenseTracker.jsx:131-132 | `parseFloat(x) \|\| 0`: the parsed number, or 0 for `NaN` |
| JsNumber.EmptyIsNaN | src/pages/ExpenseTracker.jsx:58-59 | an empty amount field parses to `NaN` and is stored as 0 |
| JsNumber.NoDigitIsZero | src/pages/ExpenseTracker.jsx:58-59 | any text without a digit is stored as 0 |
| JsNumber.NaturalRoundTrip | src/pages/tools-page/ExpenseTracker.jsx:131-132 | the decimal numeral of any whole number parses back to that number |
| JsNumber.NegativeKept | src/pages/tools-page/ExpenseTracker.jsx:131-132 | a negative amount is kept as parsed, not clamped to zero |
| JsNumber.DecimalRoundTrip | src/pages/tools-page/ExpenseTracker.jsx:131-132 | "n.f" parses to n plus the fraction digits scaled by their count |
| JsNumber.ParseFortyFiveAndAHalf | src/pages/tools-page/ExpenseTracker.jsx:132 | the amount "45.5" is stored as 45.5 |
| LedgerTotals.Step | src/pages/tools-page/ExpenseTracker.jsx:186-189 | after each reducer call, net is total profit minus total loss |
| LedgerTotals.FoldFromSums | src/pages/tools-page/ExpenseTracker.jsx:184-192 | the reduce adds exactly the sums of profits and losses to its start value |
| LedgerTotals.FoldKeepsNet | src/pages/ExpenseTracker.jsx:82-87 | net = totalProfit − totalLoss holds after every step of the fold |
| LedgerTotals.TotalsOf | src/pages/tools-page/ExpenseTracker.jsx:184-192 | the fold that draws the three cards gives the sum of profits, the sum of losses (both defined entry by entry, independently of the fold), and their difference |
| LedgerTotals.EmptyTotals | src/pages/tools-page/ExpenseTracker.jsx:191 | an empty ledger shows zero on all three cards |
| Expenses.TotalsOf | src/pages/tools-page/ExpenseTracker.jsx:184-192 | the page's cards are the sums of every stored entry's profit and loss, and their difference |
| LedgerTotals.TotalsOfPrepend | src/pages/ExpenseTracker.jsx:82-87 | prepending an entry adds its profit and loss to the cards and moves net by their difference |
| LedgerTotals.ScenarioThreeEntries | src/pages/ExpenseTracker.jsx:82-87 | income 1000, expense 250.50 and 500 against 100 total 1500 / 350.5 / 1149.5 |
| Expenses.AmountsOfPrepend | src/pages/tools-page/ExpenseTracker.jsx:148 | a prepended entry's amounts come first in the fold's input, the rest unchanged |
| RemoteLedger.Visible | src/pages/tools-page/ExpenseTracker.jsx:84-102 | an entry is listed iff title or non-null notes contain the term (ignoring case) and its category is the selected one or "all" |
| RemoteLedger.VisibleIsOnePass | src/pages/tools-page/ExpenseTracker.jsx:84-102 | the two passes (search skipped for an empty term, category skipped for "all") equal one order-keeping filter |
| RemoteLedger.NoFilterShowsAll | src/pages/tools-page/ExpenseTracker.jsx:84-102 | an empty term and "all" list every entry in order |
| RemoteLedger.VisibleIdempotent | src/pages/tools-page/ExpenseTracker.jsx:84-102 | filtering the visible list again changes nothing |
| RemoteLedger.VisibleKeepsOrder | src/pages/tools-page/ExpenseTracker.jsx:84-102 | the visible list of a concatenation is the concatenation of the visible lists |
| RemoteLedger.SearchRentScenario | src/pages/tools-page/ExpenseTracker.jsx:87-93 | "rent" finds "Rent Payment" and "Car Rental" and drops "Groceries" |
| RemoteLedger.TotalsIgnoreFilter | src/pages/tools-page/ExpenseTracker.jsx:184-192 | the cards read the whole list: changing the search or category leaves them as they were |
| RemoteLedger.NewEntry | src/pages/tools-page/ExpenseTracker.jsx:126-135 | title, date and notes are copied; an empty category becomes "Uncategorized"; amounts are parsed, or 0 for NaN; no id |
| RemoteLedger.Submit | src/pages/tools-page/ExpenseTracker.jsx:112-162 | no user, or a missing title or date, changes nothing; a failed insert changes nothing; a successful one prepends exactly the new entry, keeps the others and filters, and resets the form to today |
| RemoteLedger.SubmitUpdatesTotals | src/pages/tools-page/ExpenseTracker.jsx:148-192 | an accepted submit moves each card by exactly the new entry's amounts |
| RemoteLedger.SubmitScenarioProfitEmpty | src/pages/tools-page/ExpenseTracker.jsx:131-132 | profit "" and loss "45.5" are stored as 0 and 45.5 |
| RemoteLedger.Delete | src/pages/tools-page/ExpenseTracker.jsx:164-181 | without confirmation or on a delete error nothing changes; on success exactly the entries with another id remain, in order |
| RemoteLedger.DeleteMissingIdIsNoOp | src/pages/tools-page/ExpenseTracker.jsx:177 | deleting an id no entry carries leaves the page unchanged |
| RemoteLedger.DeleteCount | src/pages/tools-page/ExpenseTracker.jsx:177 | the remaining entries and the removed ones together count the list |
| RemoteLedger.CategoryColor | src/pages/tools-page/ExpenseTracker.jsx:209-223 | a palette category gets its colour; any other category the page stores (only "Uncategorized", the default written at line 128) gets neutral grey; the link to the form's categories is `RemoteLedger.FormCategoriesInPalette` and `RemoteLedger.OnlyBillsLookUncategorized` |
| RemoteLedger.FormCategoriesInPalette | src/pages/tools-page/ExpenseTracker.jsx:40-53 | every category the form offers has its own palette entry |
| RemoteLedger.OnlyBillsLookUncategorized | src/pages/tools-page/ExpenseTracker.jsx:213-222 | among the offered categories, exactly "Bills & Utilities" renders like an uncategorised entry, because its palette colour is the fallback grey |
| RemoteLedger.FormCategoryColorsDistinct | src/pages/tools-page/ExpenseTracker.jsx:40-53 | two different offered categories always get different badges |
| RemoteLedger.UncategorizedIsGrey | src/pages/tools-page/ExpenseTracker.jsx:209-223 | the default category "Uncategorized" is not in the palette and renders grey |
| RemoteLedger.HandleExport | src/pages/tools-page/ExpenseTracker.jsx:225-229 | a download happens iff the ledger is non-empty, with one sheet row per entry plus the header |
| RemoteLedger.ExportIgnoresFilter | src/pages/tools-page/ExpenseTracker.jsx:225-229 | the export receives the full list: search and category do not change the download |
| RemoteLedger.FreshEntriesDeletedTogether | src/pages/tools-page/ExpenseTracker.jsx:126-177 | as written: two entries added in one session both lack an id, and deleting one removes both |
| RemoteLedger.SubmitReturningId | src/pages/tools-page/ExpenseTracker.jsx:137-156 | corrected: the same outcome as the submit, with the stored row's id kept on the prepended entry |
| RemoteLedger.DeleteUndoesSubmit | src/pages/tools-page/ExpenseTracker.jsx:164-181 | corrected: deleting the entry just added restores the list as before the submit |
| LocalLedger.NewEntry | src/pages/ExpenseTracker.jsx:53-61 | the id is the clock reading in decimal; date and notes are copied; the category defaults to "Uncategorized"; amounts are parsed, or 0 |
| LocalLedger.Submit | src/pages/ExpenseTracker.jsx:45-73 | no date, or neither amount typed, changes nothing; otherwise the new entry is prepended to the unchanged list and the form resets to today |
| LocalLedger.SubmitAcceptsIff | src/pages/ExpenseTracker.jsx:48-51 | a submit changes the page iff the form has a date and a profit or a loss typed; then the list grows by one |
| LocalLedger.Delete | src/pages/ExpenseTracker.jsx:75-79 | nothing without confirmation; with it, the entries with another id remain, in their order |
| LocalLedger.DeleteUndoesSubmit | src/pages/ExpenseTracker.jsx:53-79 | when stored ids are earlier clock readings, deleting the new entry's id restores the list |
| LocalLedger.SubmitKeepsIdsBefore | src/pages/ExpenseTracker.jsx:54 | after a submit, every id is still an earlier reading than any later clock |
| LocalLedger.PageTotals | src/pages/ExpenseTracker.jsx:82-87 | the cards are the sums of profits and of losses and their difference |
| LocalLedger.SubmitUpdatesTotals | src/pages/ExpenseTracker.jsx:63-87 | an accepted submit moves each card by exactly the new entry's amounts |
| LocalLedger.SubmitLossOnly | src/pages/ExpenseTracker.jsx:48-87 | a loss-only entry of n lowers the net by exactly n |
| SheetExport.Grid | src/lib/exportToExcel.js:7-17 | n entries give n + 1 rows; row 0 is the headers; row i + 1 is entry i's six columns |
| SheetExport.StyleCell | src/lib/exportToExcel.js:70-96 | the value is kept; row 0 gets the header style; in a data row the rupee format lands exactly on columns 3 and 4 (with the profit and loss styles) and the date format exactly on column 2; other columns take the row's zebra or plain style |
| SheetExport.StyleRow | src/lib/exportToExcel.js:66-98 | a row gets a styled cell exactly where the value is present |
| SheetExport.ColumnWidths | src/lib/exportToExcel.js:106 | the six widths, header length plus 15: 20, 23, 19, 21, 19, 20 |
| SheetExport.RangeRef | src/lib/exportToExcel.js:110-112 | the filter range starts "A1:F" and its row number reads back as the row count |
| SheetExport.Export | src/lib/exportToExcel.js:4-131 | n + 1 rows, one frozen row, widths 20, 23, 19, 21, 19, 20, auto-filter A1:F(n+1), sheet "Expenses", downloaded as `FileName(now)` with the spreadsheet MIME type |
| SheetExport.FileName | src/lib/exportToExcel.js:129 | the name starts "expenses_" and ends ".xlsx" |
| SheetExport.HeaderRowStyled | src/lib/exportToExcel.js:70-76 | each of the six header cells holds its header, with the header style and no number format |
| SheetExport.DataCellStyled | src/lib/exportToExcel.js:70-96 | a data cell exists iff its value does; profit and loss get their styles and the rupee format; date keeps the row style with `dd-mm-yyyy`; the rest plain or zebra by row parity |
| SheetExport.FirstDataRowPlain | src/lib/exportToExcel.js:79 | the first data row is plain and the second zebra |
| SheetExport.NullNotesSkipped | src/lib/exportToExcel.js:70 | a `null` note leaves its cell out |
| SheetExport.EmptyExportIsHeaderOnly | src/lib/exportToExcel.js:7-17 | no entries still give the header row, filtered over A1:F1 |
| SheetExport.RowRoundTrip | src/lib/exportToExcel.js:9-16 | one styled data row reads back as its entry's six columns |
| SheetExport.ExportRow | src/lib/exportToExcel.js:9-98 | sheet row i + 1 is entry i's row, styled |
| SheetExport.ExportRoundTrip | src/lib/exportToExcel.js:7-98 | the data rows read back, in order, as the entries' exported columns |
| SheetExport.FileNameRoundTrip | src/lib/exportToExcel.js:129 | the clock reading reads back from the file name |
| AdminUsers.BalanceFoldIsSum | src/pages/admin/AdminPage.jsx:62-64 | the balance reduce adds the balances to its start, a `null` one as 0 |
| AdminUsers.MetricsOf | src/pages/admin/AdminPage.jsx:58-72 | the user count is the length; low ≤ total; the total is the sum; average × count = total, and 0 for no users |
| AdminUsers.LowBalancePartition | src/pages/admin/AdminPage.jsx:60 | low-balance users and the rest together count all users |
| AdminUsers.LowBalanceCount | src/pages/admin/AdminPage.jsx:60 | the low-balance card counts exactly the users below 50, `null` balances included |
| AdminUsers.NullBalanceIsLow | src/pages/admin/AdminPage.jsx:60 | `null < 50` holds, so a missing balance counts as low |
| AdminUsers.FiftyIsNotLow | src/pages/admin/AdminPage.jsx:60 | exactly 50 is not low (strict comparison) |
| AdminUsers.FilteredUsers | src/pages/admin/AdminPage.jsx:75-85 | an empty term returns the list itself; otherwise exactly the users whose name, email or contact contains the term ignoring case, or whose id contains it, in order |
| AdminUsers.SearchIdempotent | src/pages/admin/AdminPage.jsx:75-85 | searching the result again finds the same users |
| AdminUsers.SearchKeepsOrder | src/pages/admin/AdminPage.jsx:75-85 | the search distributes over concatenation |
| AdminUsers.BlankUserOnlyWithoutTerm | src/pages/admin/AdminPage.jsx:79-84 | a user with no name, email, contact or id is found iff the term is empty |
| AdminUsers.SearchIgnoresCase | src/pages/admin/AdminPage.jsx:78-80 | "RAHUL" finds "rahul" |
| AdminUsers.TotalPages | src/pages/admin/AdminPage.jsx:93 | the page count is the least number of 10-user pages covering the list |
| AdminUsers.PageOf | src/pages/admin/AdminPage.jsx:88-91 | at most 10 users; past the last page nothing; otherwise the 10-user slice starting at (p − 1) · 10 |
| AdminUsers.PagesFromIsSuffix | src/pages/admin/AdminPage.jsx:88-93 | pages k to the last, concatenated, are the list from (k − 1) · 10 on |
| AdminUsers.PagesCoverFiltered | src/pages/admin/AdminPage.jsx:88-93 | pages 1 to the last, concatenated, are exactly the search result |
| AdminUsers.ShowingRange | src/pages/admin/AdminPage.jsx:412 | on an existing page the caption's range lies within 1..n |
| AdminUsers.ShowingMatchesPage | src/pages/admin/AdminPage.jsx:412 | the caption counts exactly the users the page shows |
| AdminUsers.PageWindow | src/pages/admin/AdminPage.jsx:425-435 | min(totalPages, 5) consecutive page numbers within 1..totalPages, containing the current page when it is in range |
| AdminUsers.WindowCentred | src/pages/admin/AdminPage.jsx:425-435 | page 6 of 10 shows buttons 4 to 8 |
| AdminUsers.Previous | src/pages/admin/AdminPage.jsx:418 | never below 1; one back when past the first page |
| AdminUsers.Next | src/pages/admin/AdminPage.jsx:453 | never past the last page; one forward before it |
| AdminUsers.ButtonsStayInRange | src/pages/admin/AdminPage.jsx:418-453 | from a page in range, both buttons stay within 1..totalPages |
| AdminUsers.SetSearch | src/pages/admin/AdminPage.jsx:270 | as written: a new term keeps the current page |
| AdminUsers.SearchOnPageTwoShowsNothing | src/pages/admin/AdminPage.jsx:88-91 | as written: on page 2, a term with 1 to 10 matches shows an empty table |
| AdminUsers.SetSearchFromFirstPage | src/pages/admin/AdminPage.jsx:52 | corrected: a new term starts from page 1 and shows up to 10 matches |
| AdminUsers.FirstPageShowsMatches | src/pages/admin/AdminPage.jsx:88-91 | corrected: the table is empty iff nothing matches |
| AdminUsers.FirstCharsOfWords | src/pages/admin/AdminPage.jsx:140-143 | the first letters of the `split(' ')` words are the characters that start a space-separated run |
| AdminUsers.InitialsOf | src/pages/admin/AdminPage.jsx:139-146 | at most two characters: the upper-cased first letters of the words |
| AdminUsers.AvatarInitials | src/pages/admin/AdminPage.jsx:351 | the list avatar: a missing or empty name falls back to "UU" and so draws "U"; otherwise the name's initials |
| AdminUsers.DetailInitials | src/pages/admin/UserDetailPage.jsx:87-95 | "U" for a missing or empty name, otherwise the name's initials (at most two, upper-cased) |
| AdminUsers.InitialsAgree | src/pages/admin/AdminPage.jsx:351 | the list avatar (`name \|\| 'UU'`) and the detail page always draw the same initials |
| AdminUsers.InitialsScenario | src/pages/admin/AdminPage.jsx:139-146 | "ravi  kumar" gives "RK"; the doubled space adds nothing |
| AdminUsers.BalanceColor | src/pages/admin/AdminPage.jsx:148-153 | red below 0, amber below 50, blue below 100, green otherwise; `null` as 0 |
| AdminUsers.LowBadgeMatchesColor | src/pages/admin/AdminPage.jsx:374 | the "Low Balance" badge shows exactly on red and amber rows |
| AdminUsers.SufficientBalance | src/pages/admin/UserDetailPage.jsx:282-285 | "Sufficient" iff the balance is present and above 50 |
| AdminUsers.LowLabelsDisagreeOnlyAtFifty | src/pages/admin/UserDetailPage.jsx:541-545 | the list and the detail page disagree about "low" exactly at 50 |
| AdminUsers.BalanceAdded | src/pages/admin/UserDetailPage.jsx:115-118 | only the balance changes, to the new value |
| AdminUsers.BalanceAddedTwice | src/pages/admin/UserDetailPage.jsx:115-118 | two balance updates: the later wins, nothing else moves |
| AdminUsers.StatusChanged | src/pages/admin/UserDetailPage.jsx:125-128 | only the status changes, to the new value |
| AdminUsers.StatusToast | src/pages/admin/UserDetailPage.jsx:125-128 | "User activated successfully" for a change to "active", "User deactivated successfully" otherwise; that it names the dialog's change is `AdminDialogs.PageToastMatchesDialogToast` |
| AdminUsers.UserUpdated | src/pages/admin/UserDetailPage.jsx:120-123 | the dialog's record replaces the shown one; what that record holds is stated by `AdminDialogs.EditRoundTrip` and `AdminDialogs.ReopenShowsSavedForm` |
| AdminDialogs.PreviewBalance | src/pages/admin/components/AddBalanceDialog.jsx:127 | `(balance \|\| 0) + (parseFloat(amount) \|\| 0)` in terms of the parse |
| AdminDialogs.AddBalance | src/pages/admin/components/AddBalanceDialog.jsx:23-63 | an empty or non-positive amount writes nothing and keeps the dialog; on an update error only the balance update is sent, it fails, and the dialog and form are kept; success writes the previewed balance and the transaction, calls back with it, closes and clears |
| AdminDialogs.TransactionOf | src/pages/admin/components/AddBalanceDialog.jsx:42-51 | a credit by admin of the parsed amount, with the new balance and the description or its default; that it agrees with the balance written is `AdminDialogs.TransactionMatchesBalanceWrite` |
| AdminDialogs.TransactionMatchesBalanceWrite | src/pages/admin/components/AddBalanceDialog.jsx:32-54 | after a successful top-up, the transaction's amount is the positive amount typed, and its new balance is the one written to the user, reported to the page, and equal to the old balance plus that amount |
| AdminDialogs.BalanceOpenChange | src/pages/admin/components/AddBalanceDialog.jsx:65-73 | closing clears amount and description; opening keeps them; the consequences are `AdminDialogs.BalanceReopenIsEmpty` and `AdminDialogs.SubmitFormFollowsOpenChange` |
| AdminDialogs.SubmitFormFollowsOpenChange | src/pages/admin/components/AddBalanceDialog.jsx:25-73 | after any submit, the form is what the open-change handler gives for the dialog's new state: cleared when it closed, kept while open |
| AdminDialogs.BalanceReopenIsEmpty | src/pages/admin/components/AddBalanceDialog.jsx:65-73 | closing and reopening always shows an empty form |
| AdminDialogs.TopUpRaisesBalance | src/pages/admin/components/AddBalanceDialog.jsx:32-56 | a successful top-up shown on the page raises the balance strictly, to the preview, and changes nothing else |
| AdminDialogs.ZeroRefused | src/pages/admin/components/AddBalanceDialog.jsx:25-28 | "0" is refused with nothing written |
| AdminDialogs.NegativeRefused | src/pages/admin/components/AddBalanceDialog.jsx:25-28 | any negative whole amount is refused with nothing written |
| AdminDialogs.ToggledStatus | src/pages/admin/components/StatusDialog.jsx:20 | "inactive" iff the status is "active"; anything else becomes "active" |
| AdminDialogs.ToggleTwice | src/pages/admin/components/StatusDialog.jsx:20 | toggling twice from "active" or "inactive" returns to it |
| AdminDialogs.ToggleFromUnknown | src/pages/admin/components/StatusDialog.jsx:20 | any other status first becomes "active", then "inactive" |
| AdminDialogs.LogDetailsAsWritten | src/pages/admin/components/StatusDialog.jsx:39 | as written: the status word plus "d", framed by "Account " and " by admin" |
| AdminDialogs.DeactivationLogMisspelled | src/pages/admin/components/StatusDialog.jsx:39 | as written: deactivating logs "Account inactived by admin", unlike the toast |
| AdminDialogs.LogDetailsMatchToast | src/pages/admin/components/StatusDialog.jsx:34-43 | corrected: the log text uses the toast's verb in both directions |
| AdminDialogs.ChangeStatus | src/pages/admin/components/StatusDialog.jsx:18-49 | as written: on success, log the change with the text as written, call back with the toggled status, close; on failure, no callback, no log, dialog open, failure toast |
| AdminDialogs.ChangeStatusIntended | src/pages/admin/components/StatusDialog.jsx:18-49 | corrected: the same handler, logging the toast's wording |
| AdminDialogs.LogDisagreesWithToast | src/pages/admin/components/StatusDialog.jsx:39-43 | as written: the log details never read as the success toast does, in either direction |
| AdminDialogs.IntendedLogAgreesWithToast | src/pages/admin/components/StatusDialog.jsx:39-43 | corrected: the log details are always the toast's text with " by admin" for " successfully" |
| AdminDialogs.IntendedDiffersOnlyInLog | src/pages/admin/components/StatusDialog.jsx:34-41 | the correction changes the log details and nothing else |
| AdminDialogs.PageToastMatchesDialogToast | src/pages/admin/UserDetailPage.jsx:125-128 | the detail page's toast for the reported status names the same change as the dialog's toast |
| AdminDialogs.ChangeStatusTwice | src/pages/admin/components/StatusDialog.jsx:20-45 | two successful changes restore an "active" or "inactive" user |
| AdminDialogs.FormOf | src/pages/admin/components/EditUserDialog.jsx:27-36 | missing name, email and contact become ''; admin is true only when stored true |
| AdminDialogs.PayloadOf | src/pages/admin/components/EditUserDialog.jsx:48-57 | the payload is exactly the four form fields plus the timestamp; that the page shows the same fields is `AdminDialogs.PayloadMatchesShownUser` |
| AdminDialogs.Merge | src/pages/admin/components/EditUserDialog.jsx:62-63 | the merged user's form is the submitted form; id, user id, balance and status are kept |
| AdminDialogs.MergeUnchangedForm | src/pages/admin/components/EditUserDialog.jsx:62-63 | saving the untouched form of a filled-in user gives the user back |
| AdminDialogs.MergeTwice | src/pages/admin/components/EditUserDialog.jsx:62-63 | two edits: the second form wins |
| AdminDialogs.EditSubmit | src/pages/admin/components/EditUserDialog.jsx:44-70 | the payload is always sent; the merge is reported and the dialog closes only on success |
| AdminDialogs.EditOpenChange | src/pages/admin/components/EditUserDialog.jsx:72-86 | closing resets the form from the user; opening keeps it; the consequences are `AdminDialogs.ReopenShowsSavedForm` and `AdminDialogs.CancelledEditIsNoOp` |
| AdminDialogs.PayloadMatchesShownUser | src/pages/admin/components/EditUserDialog.jsx:48-62 | the user reported to the page carries exactly the four fields sent to the backend |
| AdminDialogs.ReopenShowsSavedForm | src/pages/admin/components/EditUserDialog.jsx:72-86 | after a successful edit, closing and reopening the dialog shows the saved form, whatever was typed since |
| AdminDialogs.CancelledEditIsNoOp | src/pages/admin/components/EditUserDialog.jsx:72-86 | cancelling discards the typing: saving the reset form leaves a filled-in user unchanged |
| AdminDialogs.EditRoundTrip | src/pages/admin/UserDetailPage.jsx:120-123 | after a successful edit the shown user reads back as the submitted form, balance and status unchanged |
| AadhaarFormat.BlankAddressIsPrefix | src/pages/aadhar/AadharFormPage.jsx:100-106 | with every part empty the address is exactly "C/O: " |
| AadhaarFormat.PincodeLast | src/pages/aadhar/AadharFormPage.jsx:105 | the pincode closes the address; nothing follows it |
| AadhaarFormat.NoPincodeTrailingSeparator | src/pages/aadhar/AadharFormPage.jsx:101-105 | with no pincode and any other part, the address ends in ", " |
| AadhaarFormat.ComposeAddress | src/pages/aadhar/AadharFormPage.jsx:100-106 | "C/O: ", then each non-empty part followed by ", " in the fixed order, then the pincode |
| AadhaarFormat.ComposeIsJoined | src/pages/aadhar/AadharFormPage.jsx:100-106 | the address is the prefix, each non-empty part with a separator, then the pincode |
| AadhaarFormat.AddressRoundTrip | src/pages/aadhar/AadharFormPage.jsx:101-105 | with comma-free parts, splitting after the prefix on ", " gives the non-empty parts in the fixed order (state before city), then the pincode |
| AadhaarFormat.SetAddress | src/pages/aadhar/AadharFormPage.jsx:99-107 | editing an address part recomposes the address and changes nothing else |
| AadhaarFormat.RecordOf | src/pages/aadhar/AadharFormPage.jsx:68-81 | the stored row copies every form field unchanged: the number, name, composed address, date of birth, gender, the three local-language fields and the two labels, plus the user id and the image URL |
| AadhaarFormat.InitialCard | src/pages/AadharCardPage.jsx:25-37 | before the row arrives the card shows today's date, an empty photo, name and address, and a number that renders as two spaces |
| AadhaarFormat.CardOf | src/pages/AadharCardPage.jsx:50-63 | the card state takes each field of the row, with the date formatted |
| AadhaarFormat.FormToCard | src/pages/AadharCardPage.jsx:50-63 | a submitted form shows on the card with the typed number and the composed address |
| AadhaarFormat.Grouped | src/pages/AadharCardPage.jsx:126-130 | length 2 + min(n, 12); a full number has its spaces at 4 and 9 |
| AadhaarFormat.GroupRoundTrip | src/pages/AadharCardPage.jsx:126-130 | a 12-character number groups to 14 characters, and removing the spaces restores it |
| AadhaarFormat.EmptyGroup | src/pages/AadharCardPage.jsx:25-37 | the card's initial number, the empty string, renders as two spaces, and its date is today's |
| AadhaarFormat.GroupIgnoresTail | src/pages/Aadharpage.jsx:36 | characters past the twelfth are dropped |
| AadhaarFormat.GroupHasTwoSpaces | src/pages/Aadharpage.jsx:36 | a space-free number of any length shows exactly two spaces, at fixed places |
| AadhaarFormat.FindRun | src/pages/AadharPage.jsx:105 | the leftmost place where twelve digits start, or none |
| AadhaarFormat.Hyphenated | src/pages/AadharPage.jsx:103-106 | text without a 12-digit run is returned unchanged; otherwise it grows by two |
| AadhaarFormat.SplicedRoundTrip | src/pages/AadharPage.jsx:105 | the splice keeps the text around the run, writes the run as dddd-dddd-dddd, and removing the hyphens undoes it |
| AadhaarFormat.HyphenateRoundTrip | src/pages/AadharPage.jsx:103-106 | outside the leftmost run nothing changes; removing the two hyphens restores the input |
| AadhaarFormat.HyphenateTwelveDigits | src/pages/AadharPage.jsx:103-106 | twelve digits come out as dddd-dddd-dddd |
| AadhaarFormat.OnlyFirstRunRewritten | src/pages/AadharPage.jsx:105 | without the `g` flag a second run is left untouched |
| AadhaarFormat.LastAdded | src/pages/AadharPage.jsx:204-206 | "N/A" for no records, else the first record's date, formatted; that this is the newest record is `AadhaarFormat.LastAddedIsNewest` |
| AadhaarFormat.Newest | src/pages/AadharPage.jsx:56 | the latest creation instant of a list, in any order: a member no other member exceeds |
| AadhaarFormat.LastAddedIsNewest | src/pages/AadharPage.jsx:56 | with the query's newest-first order, the card shows the latest record's date |
| AadhaarFormat.Masked | src/pages/birthCertificate/BirthCertificate.jsx:290 | "XXXX-XXXX-" followed by characters 8 to 11 of the number, as far as they exist |
| AadhaarFormat.MaskTwelve | src/pages/birthCertificate/BirthCertificate.jsx:302 | a 12-character number gives 14 characters ending in its last four |
| AadhaarFormat.MaskHidesPrefix | src/pages/birthCertificate/BirthCertificate.jsx:290 | the first eight characters never show |
| AadhaarFormat.MaskShort | src/pages/birthCertificate/BirthCertificate.jsx:302 | a number of at most eight characters shows the bare mask |
| BirthRegistration.TwoDigits | src/pages/birthCertificate/BirthCertificateForm.jsx:27-30 | two digits reading back as the number |
| BirthRegistration.SuffixValue | src/pages/birthCertificate/BirthCertificateForm.jsx:33 | `Math.floor(r · 10^7)` lies below 10^7 and within 1 under r · 10^7 |
| BirthRegistration.Suffix | src/pages/birthCertificate/BirthCertificateForm.jsx:33 | seven digits reading back as the drawn value |
| BirthRegistration.Timestamp | src/pages/birthCertificate/BirthCertificateForm.jsx:26-30 | only digits: the year's digits and then eight more; the groups read back through `BirthRegistration.DecodeRoundTrip` |
| BirthRegistration.RegistrationNo | src/pages/birthCertificate/BirthCertificateForm.jsx:23-37 | the prefix, then only digits; length prefix + year digits + 15, so prefix + 19 for a four-digit year |
| BirthRegistration.DefaultNumberShape | src/pages/birthCertificate/BirthCertificateForm.jsx:87 | the default call gives "B" and then 19 digits |
| BirthRegistration.DecodeRoundTrip | src/pages/birthCertificate/BirthCertificateForm.jsx:26-36 | reading the digit groups back gives the year, month counted from 1, day, hour, minute and the suffix |
| BirthRegistration.DistinctDrawsDistinctNumbers | src/pages/birthCertificate/BirthCertificateForm.jsx:33-36 | at the same minute, different suffixes give different numbers |
| ToolsDirectory.Filtered | src/pages/tools-page/ToolsLinkPage.jsx:91-99 | a tool is shown iff name, description or a tag contains the query ignoring case, and its category is the selected one or "all" |
| ToolsDirectory.EmptyQueryIsCategory | src/pages/tools-page/ToolsLinkPage.jsx:91-99 | with an empty query only the category decides |
| ToolsDirectory.OpeningShowsAll | src/pages/tools-page/ToolsLinkPage.jsx:30-31 | the opening state lists every tool in table order |
| ToolsDirectory.FilterIdempotentOnTools | src/pages/tools-page/ToolsLinkPage.jsx:91-99 | filtering the result again changes nothing |
| ToolsDirectory.FilterKeepsOrder | src/pages/tools-page/ToolsLinkPage.jsx:91-99 | the result distributes over concatenation |
| ToolsDirectory.TagSearch | src/pages/tools-page/ToolsLinkPage.jsx:94 | "passport" finds the image editor through its tag alone |
| ToolsDirectory.CategoryIcon | src/pages/tools-page/ToolsLinkPage.jsx:101-104 | the icon of the chip with that id, or Zap when none has it |
| ToolsDirectory.FindIcon | src/pages/tools-page/ToolsLinkPage.jsx:101-104 | the icon of the first chip with that id (of the only one when ids are distinct), or Zap when none has it |
| ToolsDirectory.ToolCategoriesHaveChips | src/pages/tools-page/ToolsLinkPage.jsx:195 | every tool's category has its own chip; "media" draws Video, "utilities" Settings, an unknown id Zap |
| ToolsDirectory.CategoryCount | src/pages/tools-page/ToolsLinkPage.jsx:96 | a category lists exactly as many tools as carry it |
| ToolsDirectory.ToolCounts | src/pages/tools-page/ToolsLinkPage.jsx:177 | with an empty query the count reads 5 for "all", 3 for media, 2 for utilities, 0 for the rest |
| ToolsDirectory.ResultsHeading | src/pages/tools-page/ToolsLinkPage.jsx:175 | "All Tools" for "all"; otherwise a name iff some chip has that id |
| ToolsDirectory.HeadingMatchesChip | src/pages/tools-page/ToolsLinkPage.jsx:175 | every chip's id heads the results with that chip's own name |
| GovernmentDirectory.Filtered | src/pages/government/GovernmentLinkPage.jsx:100-105 | a link is shown iff title or description contains the query ignoring case, and its category is the selected one or 'All' |
| GovernmentDirectory.Visible | src/pages/government/GovernmentLinkPage.jsx:100-105 | the page lists exactly the constant links that pass |
| GovernmentDirectory.ClearFilters | src/pages/government/GovernmentLinkPage.jsx:212 | both the query and the category return to their opening values |
| GovernmentDirectory.EmptyQueryIsCategory | src/pages/government/GovernmentLinkPage.jsx:100-105 | with an empty query only the category decides |
| GovernmentDirectory.OpeningShowsAll | src/pages/government/GovernmentLinkPage.jsx:97-105 | the opening state lists every link in order |
| GovernmentDirectory.ClearRestoresAll | src/pages/government/GovernmentLinkPage.jsx:203-212 | clearing from any state lists all eight links, so the empty state is gone |
| GovernmentDirectory.FilterIdempotentOnLinks | src/pages/government/GovernmentLinkPage.jsx:100-105 | filtering the result again changes nothing |
| GovernmentDirectory.FilterKeepsOrder | src/pages/government/GovernmentLinkPage.jsx:100-105 | the result distributes over concatenation |
| GovernmentDirectory.EveryCategoryHasButton | src/pages/government/GovernmentLinkPage.jsx:15-94 | every link's category is a button other than 'All', so 'All' only acts as the wildcard |
| GovernmentDirectory.ButtonsPartitionLinks | src/pages/government/GovernmentLinkPage.jsx:15-105 | with an empty query a link is under a button iff it is its category, and exactly one button is |
| GovernmentDirectory.CategoriesDistinct | src/pages/government/GovernmentLinkPage.jsx:94 | the button strings are pairwise distinct |
| GovernmentDirectory.AadhaarSearch | src/pages/government/GovernmentLinkPage.jsx:101-102 | "aadhaar" finds the UIDAI link by its title and the PAN link by its description |

## Left out

- RemoteLedger.CategoryColor: names inherited from `Object.prototype` ("constructor", "toString", "valueOf", "hasOwnProperty", "__proto__" and the like) are not modelled; for those the object lookup returns a truthy inherited member rather than grey. The add form only writes a name it offers or "Uncategorized" (src/pages/tools-page/ExpenseTracker.jsx:128), so the page does not produce one of them itself.
- Backend calls (select, insert, update, delete, auth, storage upload). Each becomes a success flag (`insertOk`, `deleteOk`, `updateOk`) or, for the corrected insert, the returned id. Loading lists from the backend is not modelled; lists are inputs.
- The transaction insert in the add-balance dialog. Its result is never read, so the model only records the row it asks to write.
- The Google Translate fetches in the form pages: network input with unspecified output.
- The XLSX library, `saveAs`, Blob creation and the workbook bytes. A cell's style is named by which of the five style objects it gets; the objects' fonts, fills and borders are not modelled.
- Locale formatting (`Intl.NumberFormat`, `toLocaleDateString`, `date-fns` `format`, `toFixed`). Where a formatted value matters (card date of birth, "Last Added") the formatter is a function parameter.
- Floating point. Money is `real`; IEEE rounding and the metrics' `Math.round(x * 100) / 100` are not modelled.
- `parseFloat`'s exponent notation and "Infinity". `toLowerCase`/`toUpperCase` are modelled for ASCII letters only.
- Text.Slice, AdminUsers.InitialsOf, AadhaarFormat.Grouped, AadhaarFormat.Masked: strings are sequences of Unicode characters, not of UTF-16 code units. JavaScript's `slice`, `word[0]` and `.length` count code units, so for a character outside the Basic Multilingual Plane (an emoji, say) the page cuts between the two halves of a surrogate pair where the model keeps the whole character. For example, "a😀bcdefghijk" groups as "a😀b cdef ghij" on the page and as "a😀bc defg hijk" here. Aadhaar numbers and the names typed in practice stay within the plane.
- AadhaarFormat.LastAdded: a record's `created_at` is an instant (a whole number); ISO text is not compared.
- The clock (`Date.now()`, `new Date()`) and `Math.random()`. Both are parameters.
- localStorage persistence of the local ledger, the mock dashboard data, printing, routing, layout and styling classes.
- React effect scheduling and asynchronous ordering: each handler is one atomic transition.
- The commented-out parts of the pages: the admin page's low-balance card (`src/pages/admin/AdminPage.jsx:465-539`) and the tools page's category chip bar with its counts (`src/pages/tools-page/ToolsLinkPage.jsx:141-170`).
- The images, icons' artwork and colours of the link directories; links and tool tags are kept as data.
- AdminDialogs.AddBalance: requires the amount to be empty or a numeral `parseFloat` reads. This is what a number input delivers; text that parses to `NaN` cannot reach the handler from the page.
- AdminUsers.PageOf: requires a page number of at least 1. The page starts at 1 and every button keeps it there (`AdminUsers.ButtonsStayInRange`).
- AadhaarFormat.Grouped: one function stands for the four identical render sites in each card page, so the sites agree by construction rather than by a lemma.
- JsNumber.ParseFloat: its contract states only that a number needs a digit; what is read is stated through `JsNumber.NaturalRoundTrip`, `JsNumber.NegativeKept` and `JsNumber.DecimalRoundTrip` for numerals, not for every string.

## Findings

| source | as written | input that shows it | evidently intended | confidence | as-written member | corrected member |
|---|---|---|---|---|---|---|
| src/pages/tools-page/ExpenseTracker.jsx:126-177 | the prepended entry is built before the insert and has no `id`; delete then drops every entry whose id equals the clicked one | add two entries in one session, then delete either: when the backend reports success for the delete, both disappear from the list (when it reports an error, neither fresh entry can be deleted before a reload) | keep the stored row's id on the prepended entry, so a delete removes only that entry | not executed | RemoteLedger.FreshEntriesDeletedTogether | RemoteLedger.DeleteUndoesSubmit |
| src/pages/admin/components/StatusDialog.jsx:39 | the log text is `Account ${newStatus}d by admin` | deactivating a user logs "Account inactived by admin" (and activating "Account actived by admin") | the toast's wording, "Account deactivated by admin" / "Account activated by admin" | not executed | AdminDialogs.LogDisagreesWithToast | AdminDialogs.IntendedLogAgreesWithToast |
| src/pages/admin/AdminPage.jsx:270 | typing a search term leaves `currentPage` as it was | on page 2, search a term matching 1 to 10 users: the table is empty although users match | a new search starts from page 1 | not executed | AdminUsers.SearchOnPageTwoShowsNothing | AdminUsers.FirstPageShowsMatches |

=== FILE: aadhaar.dfy ===
/**
 * The Aadhaar field formatters: the "C/O:" address the entry form composes
 * from its parts, the record it submits and the card page's mapping of the
 * stored row, the 4-4-4 grouping of the number on the card, the
 * hyphenation of the number in the records list, and the masked parent
 * number on the birth certificate.
 */
module AadhaarFormat {
  import opened Wrappers
  import opened Text

  // ---------------------------------------------------------------------------
  // Complete address
  // ---------------------------------------------------------------------------

  datatype AddressFields = AddressFields(fatherName: string, houseNo: string, streetLocality: string,
                                         postOffice: string, state: string, city: string,
                                         pincode: string)

  /** `x && x + ", "`: an empty part adds nothing. */
  function Part(x: string): string {
    if x == "" then "" else x + ", "
  }

  /** The six parts before the pincode, in the order the address lists them. */
  function PartsOf(a: AddressFields): seq<string> {
    [a.fatherName, a.houseNo, a.streetLocality, a.postOffice, a.state, a.city]
  }

  /** The non-empty ones among them. */
  function LeadingParts(a: AddressFields): (r: seq<string>)
    ensures |r| <= 6
    ensures forall i :: 0 <= i < |r| ==> r[i] != ""
  {
    NonEmpty(PartsOf(a))
  }

  function NonEmpty(xs: seq<string>): (r: seq<string>)
    ensures |r| <= |xs|
    ensures forall i :: 0 <= i < |r| ==> r[i] != "" && r[i] in xs
    decreases |xs|
  {
    if xs == [] then [] else (if xs[0] == "" then [] else [xs[0]]) + NonEmpty(xs[1..])
  }

  /**
   * The completed address effect: the prefix, each of the six parts followed
   * by its separator when present, then the pincode.
   */
  function ComposeAddress(a: AddressFields): (r: string)
    ensures |r| >= 5 && r[..5] == "C/O: "
    ensures r == "C/O: " + Joined(LeadingParts(a)) + a.pincode
  {
    JoinedSkipsEmpty(PartsOf(a));
    "C/O: " + Joined(PartsOf(a)) + a.pincode
  }

  const BlankAddress := AddressFields("", "", "", "", "", "", "")

  /** With every part empty, only the prefix remains. */
  lemma BlankAddressIsPrefix()
    ensures ComposeAddress(BlankAddress) == "C/O: "
  {
  }

  /** The pincode closes the address: nothing follows it. */
  lemma PincodeLast(a: AddressFields)
    ensures |ComposeAddress(a)| >= |a.pincode|
    ensures ComposeAddress(a)[|ComposeAddress(a)| - |a.pincode|..] == a.pincode
  {
  }

  /** Without a pincode, an address with any other part ends in the separator. */
  lemma NoPincodeTrailingSeparator(a: AddressFields)
    requires a.pincode == "" && LeadingParts(a) != []
    ensures var r := ComposeAddress(a); |r| >= 8 && r[|r| - 2..] == ", "
  {
    ComposeIsJoined(a);
    var j := Joined(LeadingParts(a));
    JoinedEndsInSeparator(LeadingParts(a));
    var r := ComposeAddress(a);
    assert r == "C/O: " + j;
    assert r[|r| - 2..] == j[|j| - 2..];
  }

  /** Joining at least one non-empty part ends in ", " and is at least three characters. */
  lemma {:induction false} JoinedEndsInSeparator(xs: seq<string>)
    requires xs != [] && forall i :: 0 <= i < |xs| ==> xs[i] != ""
    ensures var j := Joined(xs); |j| >= 3 && j[|j| - 2..] == ", "
    decreases |xs|
  {
    var j := Joined(xs);
    var rest := Joined(xs[1..]);
    assert j == xs[0] + ", " + rest;
    if xs[1..] == [] {
      assert j == xs[0] + ", ";
    } else {
      JoinedEndsInSeparator(xs[1..]);
      assert j[|j| - 2..] == rest[|rest| - 2..];
    }
  }

  /** `s.split(", ")`: the separator is the two characters comma and space. */
  function SplitSep(s: string): (r: seq<string>)
    ensures |r| >= 1
    decreases |s|
  {
    if s == "" then [""]
    else if |s| >= 2 && s[0] == ',' && s[1] == ' ' then [""] + SplitSep(s[2..])
    else
      var rest := SplitSep(s[1..]);
      [[s[0]] + rest[0]] + rest[1..]
  }

  predicate NoComma(s: string) {
    forall i :: 0 <= i < |s| ==> s[i] != ','
  }

  /** Splitting a comma-free part followed by the separator yields that part first. */
  lemma {:induction false} SplitSepPart(x: string, rest: string)
    requires NoComma(x)
    ensures SplitSep(x + ", " + rest) == [x] + SplitSep(rest)
    decreases |x|
  {
    if x == "" {
      assert ("" + ", " + rest)[2..] == rest;
    } else {
      assert (x + ", " + rest)[1..] == x[1..] + ", " + rest;
      SplitSepPart(x[1..], rest);
      assert [x[0]] + x[1..] == x;
    }
  }

  /** Splitting a comma-free string yields it whole. */
  lemma {:induction false} SplitSepNoComma(x: string)
    requires NoComma(x)
    ensures SplitSep(x) == [x]
    decreases |x|
  {
    if x != "" {
      SplitSepNoComma(x[1..]);
      assert [x[0]] + x[1..] == x;
    }
  }

  lemma {:induction false} SplitSepParts(xs: seq<string>, last: string)
    requires forall i :: 0 <= i < |xs| ==> NoComma(xs[i]) && xs[i] != ""
    requires NoComma(last)
    ensures SplitSep(Joined(xs) + last) == xs + [last]
    decreases |xs|
  {
    if xs == [] {
      assert Joined(xs) + last == last;
      SplitSepNoComma(last);
    } else {
      SplitSepParts(xs[1..], last);
      assert Joined(xs) + last == xs[0] + ", " + (Joined(xs[1..]) + last);
      SplitSepPart(xs[0], Joined(xs[1..]) + last);
    }
  }

  /** Each part followed by the separator. */
  function Joined(xs: seq<string>): string
    decreases |xs|
  {
    if xs == [] then "" else Part(xs[0]) + Joined(xs[1..])
  }

  lemma {:induction false} JoinedSkipsEmpty(xs: seq<string>)
    ensures Joined(xs) == Joined(NonEmpty(xs))
    decreases |xs|
  {
    if xs != [] {
      JoinedSkipsEmpty(xs[1..]);
      if xs[0] == "" {
        assert NonEmpty(xs) == NonEmpty(xs[1..]);
      } else {
        assert NonEmpty(xs) == [xs[0]] + NonEmpty(xs[1..]);
        assert ([xs[0]] + NonEmpty(xs[1..]))[1..] == NonEmpty(xs[1..]);
      }
    }
  }

  /** The address is the prefix, the non-empty parts each with a separator, and the pincode. */
  lemma ComposeIsJoined(a: AddressFields)
    ensures ComposeAddress(a) == "C/O: " + Joined(LeadingParts(a)) + a.pincode
  {
    JoinedSkipsEmpty(PartsOf(a));
  }

  predicate NoCommas(a: AddressFields) {
    NoComma(a.fatherName) && NoComma(a.houseNo) && NoComma(a.streetLocality) && NoComma(a.postOffice)
    && NoComma(a.state) && NoComma(a.city) && NoComma(a.pincode)
  }

  /**
   * When no part contains a comma, splitting the address after "C/O: " on
   * ", " gives back the non-empty parts in their fixed order (father, house,
   * street, post office, state, city) followed by the pincode.
   */
  lemma AddressRoundTrip(a: AddressFields)
    requires NoCommas(a)
    ensures var r := ComposeAddress(a); SplitSep(r[5..]) == LeadingParts(a) + [a.pincode]
  {
    ComposeIsJoined(a);
    var r := ComposeAddress(a);
    var parts := LeadingParts(a);
    assert r[5..] == Joined(parts) + a.pincode by {
      assert r == "C/O: " + (Joined(parts) + a.pincode);
    }
    LeadingPartsNoComma(a);
    SplitSepParts(parts, a.pincode);
  }

  lemma LeadingPartsNoComma(a: AddressFields)
    requires NoCommas(a)
    ensures forall i :: 0 <= i < |LeadingParts(a)| ==> NoComma(LeadingParts(a)[i]) && LeadingParts(a)[i] != ""
  {
    var all := PartsOf(a);
    assert forall j :: 0 <= j < |all| ==> NoComma(all[j]);
    forall i | 0 <= i < |LeadingParts(a)| ensures NoComma(LeadingParts(a)[i]) {
      assert LeadingParts(a)[i] in all;
    }
  }

  // ---------------------------------------------------------------------------
  // The entry form, its submitted record and the card page
  // ---------------------------------------------------------------------------

  /** The entry form's fields (the image is already uploaded: its URL is an input). */
  datatype EntryForm = EntryForm(aadharNo: string, name: string, address: AddressFields,
                                 completeAddress: string, dob: string, gender: string,
                                 localLanguageName: string, localLanguageAddress: string,
                                 localLanguageGender: string, localLanguageAdr: string,
                                 localLanguageDob: string)

  /** The effect keeps the composed address in step with its parts. */
  predicate AddressInStep(f: EntryForm) {
    f.completeAddress == ComposeAddress(f.address)
  }

  /** Editing an address part: the part changes, then the effect recomposes. */
  function SetAddress(f: EntryForm, a: AddressFields): (r: EntryForm)
    ensures AddressInStep(r)
    ensures r.(address := f.address, completeAddress := f.completeAddress) == f
  {
    f.(address := a, completeAddress := ComposeAddress(a))
  }

  /** A row of the `adhaar_store` table. */
  datatype StoredRecord = StoredRecord(userId: Option<string>, aadhaarNo: string, name: string,
                                       completeAddress: string, dob: string, gender: string,
                                       localLanguageName: string, localLanguageAddress: string,
                                       localLanguageGender: string, localLanguageAddressLabel: string,
                                       localLanguageDobLabel: string, imageUrl: string)

  /** `newAdhaarCardInfo`: each field copied under its column name. */
  function RecordOf(f: EntryForm, userId: Option<string>, imageUrl: string): (r: StoredRecord)
    ensures r.aadhaarNo == f.aadharNo && r.completeAddress == f.completeAddress
    ensures r.localLanguageAddressLabel == f.localLanguageAdr && r.localLanguageDobLabel == f.localLanguageDob
    ensures r.imageUrl == imageUrl && r.userId == userId && r.name == f.name
    ensures r.dob == f.dob && r.gender == f.gender && r.localLanguageName == f.localLanguageName
    ensures r.localLanguageAddress == f.localLanguageAddress && r.localLanguageGender == f.localLanguageGender
  {
    StoredRecord(userId, f.aadharNo, f.name, f.completeAddress, f.dob, f.gender, f.localLanguageName,
                 f.localLanguageAddress, f.localLanguageGender, f.localLanguageAdr, f.localLanguageDob,
                 imageUrl)
  }

  /** The card page's state. */
  datatype CardState = CardState(previewImage: string, aadharNo: string, name: string,
                                 completeAddress: string, dob: string, gender: string,
                                 localLanguageName: string, localLanguageAddress: string,
                                 localLanguageGender: string, localLanguageAdr: string,
                                 localLanguageDob: string)

  /**
   * The card page before the row arrives: blank fields and today's date, which
   * the clock and the `dd/MM/yyyy` formatter supply as `today`.
   */
  function InitialCard(today: string): (c: CardState)
    ensures c.dob == today
    ensures c.aadharNo == "" && Grouped(c.aadharNo) == "  "
    ensures c.previewImage == "" && c.name == "" && c.completeAddress == ""
  {
    CardState("", "", "", "", today, "", "", "", "", "", "")
  }

  /**
   * The fetched row mapped into the card's state; the date is rendered by
   * the date library's `dd/MM/yyyy` formatter, passed in.
   */
  function CardOf(row: StoredRecord, formatDob: string -> string): (c: CardState)
    ensures c.previewImage == row.imageUrl && c.aadharNo == row.aadhaarNo
    ensures c.localLanguageAdr == row.localLanguageAddressLabel
    ensures c.localLanguageDob == row.localLanguageDobLabel
    ensures c.dob == formatDob(row.dob)
    ensures c.completeAddress == row.completeAddress
  {
    CardState(row.imageUrl, row.aadhaarNo, row.name, row.completeAddress, formatDob(row.dob), row.gender,
              row.localLanguageName, row.localLanguageAddress, row.localLanguageGender,
              row.localLanguageAddressLabel, row.localLanguageDobLabel)
  }

  /**
   * From the form to the card: a record submitted from a form whose address
   * is in step shows the typed number and the composed address.
   */
  lemma FormToCard(f: EntryForm, userId: Option<string>, imageUrl: string, formatDob: string -> string)
    requires AddressInStep(f)
    ensures var c := CardOf(RecordOf(f, userId, imageUrl), formatDob);
      && c.aadharNo == f.aadharNo
      && c.completeAddress == ComposeAddress(f.address)
      && c.previewImage == imageUrl
      && c.name == f.name && c.gender == f.gender
      && c.localLanguageAdr == f.localLanguageAdr
  {
  }

  // ---------------------------------------------------------------------------
  // 4-4-4 grouping on the card
  // ---------------------------------------------------------------------------

  /** `n.slice(0, 4) + " " + n.slice(4, 8) + " " + n.slice(8, 12)`. */
  function Grouped(n: string): (g: string)
    ensures |g| == 2 + Min(|n|, 12)
    ensures |n| >= 12 ==> g[4] == ' ' && g[9] == ' '
  {
    Slice(n, 0, 4) + " " + Slice(n, 4, 8) + " " + Slice(n, 8, 12)
  }

  /** Dropping the two inserted spaces of a full group. */
  function Ungrouped(g: string): string
    requires |g| == 14
  {
    g[..4] + g[5..9] + g[10..]
  }

  /** A 12-character number: grouped to 14 characters, and ungrouping restores it. */
  lemma GroupRoundTrip(n: string)
    requires |n| == 12
    ensures |Grouped(n)| == 14
    ensures Ungrouped(Grouped(n)) == n
  {
    var g := Grouped(n);
    assert g[..4] == n[..4] && g[5..9] == n[4..8] && g[10..] == n[8..];
    assert n == n[..4] + n[4..8] + n[8..];
  }

  /** The card's initial empty number still shows its two spaces. */
  lemma EmptyGroup(today: string)
    ensures Grouped("") == "  "
    ensures Grouped(InitialCard(today).aadharNo) == "  " && InitialCard(today).dob == today
  {
  }

  /** Characters after the twelfth are not shown. */
  lemma GroupIgnoresTail(n: string, tail: string)
    requires |n| == 12
    ensures Grouped(n + tail) == Grouped(n)
  {
    assert (n + tail)[..12] == n;
    SliceOfPrefix(n + tail, 0, 4, 12);
    SliceOfPrefix(n + tail, 4, 8, 12);
    SliceOfPrefix(n + tail, 8, 12, 12);
  }

  /** A space-free number of any length gets exactly the two separating spaces. */
  lemma GroupHasTwoSpaces(n: string)
    requires forall i :: 0 <= i < |n| ==> n[i] != ' '
    ensures var g := Grouped(n);
      forall i :: 0 <= i < |g| ==> (g[i] == ' ' <==> i == Min(|n|, 4) || i == Min(|n|, 8) + 1)
  {
    var g := Grouped(n);
    var a, b, c := Slice(n, 0, 4), Slice(n, 4, 8), Slice(n, 8, 12);
    assert g == a + " " + b + " " + c;
    assert |a| == Min(|n|, 4);
    assert |a| + 1 + |b| == Min(|n|, 8) + 1;
    forall i | 0 <= i < |g| ensures g[i] == ' ' <==> i == |a| || i == |a| + 1 + |b| {
      if i < |a| {
        assert g[i] == a[i] == n[i];
      } else if i == |a| {
      } else if i < |a| + 1 + |b| {
        assert g[i] == b[i - |a| - 1] == n[4 + i - |a| - 1];
      } else if i == |a| + 1 + |b| {
      } else {
        assert g[i] == c[i - |a| - 2 - |b|] == n[8 + i - |a| - 2 - |b|];
      }
    }
  }

  // ---------------------------------------------------------------------------
  // Hyphenation in the records list
  // ---------------------------------------------------------------------------

  /** Twelve digits start at `i`. */
  predicate RunAt(s: string, i: int) {
    0 <= i && i + 12 <= |s| && AllDigits(s[i..i + 12])
  }

  /** The leftmost place from `from` on where twelve digits start. */
  function FindRun(s: string, from: nat): (k: Option<nat>)
    ensures k.Some? ==> from <= k.value && RunAt(s, k.value)
    ensures k.Some? ==> forall j :: from <= j < k.value ==> !RunAt(s, j)
    ensures k.None? ==> forall j :: from <= j ==> !RunAt(s, j)
    decreases |s| - from
  {
    if from + 12 > |s| then None
    else if RunAt(s, from) then Some(from)
    else FindRun(s, from + 1)
  }

  /**
   * `n.replace(/(\d{4})(\d{4})(\d{4})/, "$1-$2-$3")`: the regex matches twelve
   * consecutive digits; without the `g` flag only the leftmost match is
   * rewritten.
   */
  function Hyphenated(s: string): (r: string)
    ensures FindRun(s, 0).None? ==> r == s
    ensures FindRun(s, 0).Some? ==> |r| == |s| + 2
  {
    match FindRun(s, 0)
    case None => s
    case Some(k) => Spliced(s, k)
  }

  /** The twelve characters at `k` written as three groups of four joined by hyphens. */
  function Spliced(s: string, k: nat): (r: string)
    requires k + 12 <= |s|
    ensures |r| == |s| + 2
  {
    s[..k] + s[k..k + 4] + "-" + s[k + 4..k + 8] + "-" + s[k + 8..k + 12] + s[k + 12..]
  }

  /** Removing the two hyphens inserted after position `k`. */
  function Dehyphenated(h: string, k: nat): string
    requires k + 14 <= |h|
  {
    h[..k + 4] + h[k + 5..k + 9] + h[k + 10..]
  }

  /** The splice keeps the text around the run and removing its two hyphens undoes it. */
  lemma SplicedRoundTrip(s: string, k: nat)
    requires k + 12 <= |s|
    ensures var h := Spliced(s, k);
      && h[..k] == s[..k]
      && h[k..k + 14] == s[k..k + 4] + "-" + s[k + 4..k + 8] + "-" + s[k + 8..k + 12]
      && h[k + 14..] == s[k + 12..]
      && Dehyphenated(h, k) == s
  {
    var h := Spliced(s, k);
    var mid := s[k..k + 4] + "-" + s[k + 4..k + 8] + "-" + s[k + 8..k + 12];
    assert |mid| == 14;
    assert h == s[..k] + mid + s[k + 12..];
    assert h[..k] == s[..k];
    assert h[k..k + 14] == mid;
    assert h[k + 14..] == s[k + 12..];
    assert h[..k + 4] == s[..k + 4];
    assert h[k + 5..k + 9] == s[k + 4..k + 8];
    assert h[k + 10..] == s[k + 8..];
    assert s == s[..k + 4] + s[k + 4..k + 8] + s[k + 8..];
  }

  /**
   * Where a run exists, everything outside it is kept, the run is written
   * `dddd-dddd-dddd`, and removing the two hyphens restores the input.
   */
  lemma HyphenateRoundTrip(s: string)
    requires FindRun(s, 0).Some?
    ensures var k := FindRun(s, 0).value; var h := Hyphenated(s);
      && h[..k] == s[..k]
      && h[k..k + 14] == s[k..k + 4] + "-" + s[k + 4..k + 8] + "-" + s[k + 8..k + 12]
      && h[k + 14..] == s[k + 12..]
      && Dehyphenated(h, k) == s
  {
    SplicedRoundTrip(s, FindRun(s, 0).value);
  }

  /** A twelve-digit number comes out as `dddd-dddd-dddd`. */
  lemma HyphenateTwelveDigits(s: string)
    requires |s| == 12 && AllDigits(s)
    ensures Hyphenated(s) == s[..4] + "-" + s[4..8] + "-" + s[8..]
  {
    assert s[0..12] == s;
    assert RunAt(s, 0);
  }

  /** A second run after the first is left untouched. */
  lemma OnlyFirstRunRewritten(a: string, b: string)
    requires |a| == 12 && AllDigits(a) && |b| == 12 && AllDigits(b)
    ensures Hyphenated(a + " " + b) == a[..4] + "-" + a[4..8] + "-" + a[8..] + " " + b
  {
    var s := a + " " + b;
    assert s[0..12] == a;
    assert RunAt(s, 0);
    assert FindRun(s, 0) == Some(0);
    assert s[..0] == "" && s[0..4] == a[..4] && s[4..8] == a[4..8] && s[8..12] == a[8..];
    assert s[12..] == " " + b;
  }

  // ---------------------------------------------------------------------------
  // "Last Added" and the masked parent number
  // ---------------------------------------------------------------------------

  /**
   * The "Last Added" card: the first listed record's creation instant,
   * rendered by the locale formatter passed in, or "N/A" for no records.
   */
  function LastAdded(createdAts: seq<nat>, formatDate: nat -> string): (r: string)
    ensures createdAts == [] ==> r == "N/A"
    ensures createdAts != [] ==> r == formatDate(createdAts[0])
  {
    if |createdAts| > 0 then formatDate(createdAts[0]) else "N/A"
  }

  /** The list as the query returns it: ordered by creation time, newest first. */
  predicate NewestFirst(createdAts: seq<nat>) {
    forall i, j :: 0 <= i < j < |createdAts| ==> createdAts[j] <= createdAts[i]
  }

  /** The latest creation instant of a non-empty list, whatever its order. */
  function Newest(createdAts: seq<nat>): (m: nat)
    requires createdAts != []
    ensures m in createdAts
    ensures forall t :: t in createdAts ==> t <= m
  {
    if |createdAts| == 1 then createdAts[0]
    else
      var rest := Newest(createdAts[1..]);
      assert forall t :: t in createdAts ==> t == createdAts[0] || t in createdAts[1..];
      if createdAts[0] >= rest then createdAts[0] else rest
  }

  /** With the newest-first order of the query, the card shows the latest record's date. */
  lemma LastAddedIsNewest(createdAts: seq<nat>, formatDate: nat -> string)
    requires NewestFirst(createdAts)
    ensures createdAts != [] ==> LastAdded(createdAts, formatDate) == formatDate(Newest(createdAts))
  {
    if createdAts != [] {
      var m := Newest(createdAts);
      var k :| 0 <= k < |createdAts| && createdAts[k] == m;
      assert createdAts[0] in createdAts;
      if k > 0 {
        assert createdAts[k] <= createdAts[0];
      }
    }
  }

  /** `XXXX-XXXX-` followed by `n.slice(8, 12)`. */
  function Masked(n: string): (m: string)
    ensures |m| == 10 + (if |n| <= 8 then 0 else Min(|n|, 12) - 8)
    ensures m[..10] == "XXXX-XXXX-"
    ensures forall i :: 10 <= i < |m| ==> m[i] == n[i - 2]
  {
    "XXXX-XXXX-" + Slice(n, 8, 12)
  }

  /** A 12-character number shows its last four characters. */
  lemma MaskTwelve(n: string)
    requires |n| == 12
    ensures |Masked(n)| == 14 && Masked(n)[10..] == n[8..]
  {
  }

  /** The first eight characters never show. */
  lemma MaskHidesPrefix(a: string, b: string, tail: string)
    requires |a| == 8 && |b| == 8
    ensures Masked(a + tail) == Masked(b + tail)
  {
    var x, y := Slice(a + tail, 8, 12), Slice(b + tail, 8, 12);
    assert |x| == |y|;
    assert forall i :: 0 <= i < |x| ==> x[i] == y[i];
  }

  /** Short numbers show nothing after the mask. */
  lemma MaskShort(n: string)
    requires |n| <= 8
    ensures Masked(n) == "XXXX-XXXX-"
  {
  }
}

=== FILE: admin_dialogs.dfy ===
/**
 * The three dialogs of the user-detail page: add balance, toggle the
 * account status, and edit the user's details. Each submit is one state
 * transition whose backend answers (`updateOk`) are inputs; the result
 * records the callback the dialog makes to the page (if any), whether the
 * dialog stays open, and the rows it asks the backend to write.
 */
module AdminDialogs {
  import opened Wrappers
  import JsNumber
  import opened AdminUsers

  // ---------------------------------------------------------------------------
  // Add balance
  // ---------------------------------------------------------------------------

  datatype BalanceForm = BalanceForm(amount: string, description: string)

  const EmptyBalanceForm := BalanceForm("", "")

  /** The `transactions` row written after a successful balance update. */
  datatype Transaction = Transaction(userId: string, kind: string, amount: real,
                                     description: string, newBalance: real, createdBy: string)

  datatype AddBalanceResult = AddBalanceResult(
    onSuccess: Option<real>,       // the value passed to `onSuccess`, if it was called
    open: bool,
    form: BalanceForm,
    balanceWrite: Option<real>,    // the balance sent to the `user` table
    transaction: Option<Transaction>)

  /**
   * The amount field is a number input, so its value is either empty or a
   * numeral `parseFloat` reads.
   */
  predicate NumberInput(amount: string) {
    amount == "" || JsNumber.ParseFloat(amount).Some?
  }

  /** `!amount || parseFloat(amount) <= 0`. */
  predicate InvalidAmount(amount: string)
    requires NumberInput(amount)
  {
    amount == "" || JsNumber.ParseFloat(amount).value <= 0.0
  }

  /** The "New Balance" line of the dialog: `(balance || 0) + (parseFloat(amount) || 0)`. */
  function PreviewBalance(u: User, amount: string): (b: real)
    ensures JsNumber.ParseFloat(amount).Some? ==> b == BalanceOf(u) + JsNumber.ParseFloat(amount).value
    ensures JsNumber.ParseFloat(amount).None? ==> b == BalanceOf(u)
  {
    BalanceOf(u) + JsNumber.OrZero(amount)
  }

  /**
   * `handleSubmit`: an invalid amount is refused with nothing written; a
   * failed update keeps the dialog open with its form; a successful one writes
   * the transaction (whose own result is never looked at), calls back with
   * the new balance, closes and clears the form. `balance + amount` treats a
   * `null` balance as `0`.
   */
  function AddBalance(u: User, form: BalanceForm, updateOk: bool): (r: AddBalanceResult)
    requires NumberInput(form.amount)
    ensures InvalidAmount(form.amount) ==> r == AddBalanceResult(None, true, form, None, None)
    ensures !InvalidAmount(form.amount) ==> r.balanceWrite == Some(PreviewBalance(u, form.amount))
    ensures !InvalidAmount(form.amount) && !updateOk ==>
              r == AddBalanceResult(None, true, form, r.balanceWrite, None)
    ensures !InvalidAmount(form.amount) && updateOk ==>
              r == AddBalanceResult(r.balanceWrite, false, EmptyBalanceForm, r.balanceWrite,
                                    Some(TransactionOf(u, form, r.balanceWrite.value)))
  {
    if InvalidAmount(form.amount) then AddBalanceResult(None, true, form, None, None)
    else
      var newBalance := PreviewBalance(u, form.amount);
      if !updateOk then AddBalanceResult(None, true, form, Some(newBalance), None)
      else AddBalanceResult(Some(newBalance), false, EmptyBalanceForm, Some(newBalance),
                            Some(TransactionOf(u, form, newBalance)))
  }

  /** The credit row: the parsed amount, the new balance, a default description. */
  function TransactionOf(u: User, form: BalanceForm, newBalance: real): (t: Transaction)
    ensures t.kind == "credit" && t.createdBy == "admin" && t.userId == u.userId
    ensures t.amount == JsNumber.OrZero(form.amount) && t.newBalance == newBalance
    ensures t.description == (if form.description == "" then "Balance added by admin" else form.description)
  {
    Transaction(u.userId, "credit", JsNumber.OrZero(form.amount),
                if form.description == "" then "Balance added by admin" else form.description,
                newBalance, "admin")
  }

  /** `handleOpenChange`: closing clears the form; opening keeps it. */
  function BalanceOpenChange(form: BalanceForm, open: bool): (r: BalanceForm)
    ensures !open ==> r == EmptyBalanceForm
    ensures open ==> r == form
  {
    if open then form else EmptyBalanceForm
  }

  /**
   * The transaction row and the balance write tell the same story: the row's
   * amount is the positive amount typed, and its new balance is the one sent
   * to the `user` table and reported to the page, the old balance plus that
   * amount.
   */
  lemma TransactionMatchesBalanceWrite(u: User, form: BalanceForm)
    requires NumberInput(form.amount) && !InvalidAmount(form.amount)
    ensures var r := AddBalance(u, form, true);
      && r.transaction.Some? && r.balanceWrite.Some? && r.onSuccess.Some?
      && r.transaction.value.amount == JsNumber.ParseFloat(form.amount).value
      && r.transaction.value.amount > 0.0
      && r.transaction.value.newBalance == r.balanceWrite.value == r.onSuccess.value
      && r.transaction.value.newBalance == BalanceOf(u) + r.transaction.value.amount
  {
  }

  /**
   * After any submit, the dialog's form is what its open-change handler gives
   * for the dialog's new open state: cleared once closed, kept while open.
   */
  lemma SubmitFormFollowsOpenChange(u: User, form: BalanceForm, updateOk: bool)
    requires NumberInput(form.amount)
    ensures var r := AddBalance(u, form, updateOk);
      r.form == BalanceOpenChange(form, r.open)
  {
  }

  /** Closing and reopening always shows an empty form, whatever was typed. */
  lemma BalanceReopenIsEmpty(form: BalanceForm)
    ensures BalanceOpenChange(BalanceOpenChange(form, false), true) == EmptyBalanceForm
  {
  }

  /**
   * A successful top-up and the page's handler together: the shown user gets
   * the previewed balance, strictly more than before, and nothing else changes.
   */
  lemma TopUpRaisesBalance(u: User, form: BalanceForm)
    requires NumberInput(form.amount) && !InvalidAmount(form.amount)
    ensures var r := AddBalance(u, form, true);
      && r.onSuccess.Some?
      && BalanceAdded(u, r.onSuccess.value).balance == Some(PreviewBalance(u, form.amount))
      && BalanceOf(BalanceAdded(u, r.onSuccess.value)) > BalanceOf(u)
      && BalanceAdded(u, r.onSuccess.value).(balance := u.balance) == u
  {
  }

  /** A zero amount is refused; no callback happens and nothing is written. */
  lemma ZeroRefused(u: User, updateOk: bool)
    ensures NumberInput("0")
    ensures AddBalance(u, BalanceForm("0", ""), updateOk) == AddBalanceResult(None, true, BalanceForm("0", ""), None, None)
  {
    JsNumber.NaturalRoundTrip(0);
    assert JsNumber.Text.NatToString(0) == "0";
  }

  /** A negative amount is refused too: `parseFloat` keeps its sign. */
  lemma NegativeRefused(u: User, n: nat, updateOk: bool)
    ensures NumberInput("-" + JsNumber.Text.NatToString(n))
    ensures var f := BalanceForm("-" + JsNumber.Text.NatToString(n), "");
      AddBalance(u, f, updateOk) == AddBalanceResult(None, true, f, None, None)
  {
    JsNumber.NegativeKept(n);
  }

  // ---------------------------------------------------------------------------
  // Account status
  // ---------------------------------------------------------------------------

  /** `user.status === 'active' ? 'inactive' : 'active'`. */
  function ToggledStatus(status: Option<string>): (s: string)
    ensures s == "inactive" <==> status == Some("active")
    ensures s == "active" <==> status != Some("active")
  {
    if status == Some("active") then "inactive" else "active"
  }

  /** Toggling twice from either proper status returns to it. */
  lemma ToggleTwice(status: string)
    requires status == "active" || status == "inactive"
    ensures ToggledStatus(Some(ToggledStatus(Some(status)))) == status
  {
  }

  /** Any other status (or none) becomes "active" on the first toggle. */
  lemma ToggleFromUnknown(status: Option<string>)
    requires status != Some("active") && status != Some("inactive")
    ensures ToggledStatus(status) == "active"
    ensures ToggledStatus(Some(ToggledStatus(status))) == "inactive"
  {
  }

  /** The `admin_logs` row. */
  datatype AdminLog = AdminLog(userId: string, action: string, details: string, adminId: string)

  /** The log text as written: the status word with a "d" appended. */
  function LogDetailsAsWritten(newStatus: string): (d: string)
    ensures |d| == |newStatus| + |"Account d by admin"|
    ensures d[..8] == "Account " && d[8..8 + |newStatus|] == newStatus
    ensures d[8 + |newStatus|..] == "d by admin"
  {
    "Account " + newStatus + "d by admin"
  }

  /** The verb the success toast uses for the same change. */
  function StatusVerb(newStatus: string): (v: string)
    ensures v == "activated" || v == "deactivated"
    ensures v == "activated" <==> newStatus == "active"
  {
    if newStatus == "active" then "activated" else "deactivated"
  }

  /** The log text as evidently intended: the toast's verb. */
  function LogDetails(newStatus: string): string {
    "Account " + StatusVerb(newStatus) + " by admin"
  }

  /** Deactivating logs "Account inactived by admin", which is not the toast's wording. */
  lemma DeactivationLogMisspelled()
    ensures LogDetailsAsWritten("inactive") == "Account inactived by admin"
    ensures LogDetailsAsWritten("inactive") != LogDetails("inactive")
  {
    assert LogDetails("inactive") == "Account deactivated by admin";
    assert LogDetailsAsWritten("inactive")[8] == 'i' != LogDetails("inactive")[8];
  }

  /** The intended text agrees with the toast for both directions of the toggle. */
  lemma LogDetailsMatchToast(status: Option<string>)
    ensures var s := ToggledStatus(status);
      LogDetails(s) == "Account " + (if status == Some("active") then "deactivated" else "activated") + " by admin"
  {
  }

  datatype StatusResult = StatusResult(onSuccess: Option<string>, open: bool,
                                       log: Option<AdminLog>, toast: string)

  /** The failure toast for a change towards `newStatus`. */
  function FailureToast(newStatus: string): string {
    "Failed to " + (if newStatus == "active" then "activate" else "deactivate") + " account"
  }

  /**
   * `handleStatusChange` as written: on a successful update, log the change
   * (with the misspelt details), call back with the new status and close; on
   * failure, only the error toast.
   */
  function ChangeStatus(u: User, updateOk: bool): (r: StatusResult)
    ensures var s := ToggledStatus(u.status);
      && (updateOk ==> r.onSuccess == Some(s) && !r.open && r.log.Some?)
      && (updateOk ==> r.log.value == AdminLog(u.userId, "account_" + s, LogDetailsAsWritten(s), "current_admin_id"))
      && (updateOk ==> r.toast == "Account " + StatusVerb(s) + " successfully")
      && (!updateOk ==> r.onSuccess == None && r.open && r.log == None)
      && (!updateOk ==> r.toast == FailureToast(s))
  {
    var s := ToggledStatus(u.status);
    if updateOk then
      StatusResult(Some(s), false, Some(AdminLog(u.userId, "account_" + s, LogDetailsAsWritten(s), "current_admin_id")),
                   "Account " + StatusVerb(s) + " successfully")
    else
      StatusResult(None, true, None, FailureToast(s))
  }

  /** The same handler with the log details worded as the toast is. */
  function ChangeStatusIntended(u: User, updateOk: bool): (r: StatusResult)
    ensures var s := ToggledStatus(u.status);
      && (updateOk ==> r.onSuccess == Some(s) && !r.open && r.log.Some?)
      && (updateOk ==> r.log.value == AdminLog(u.userId, "account_" + s, LogDetails(s), "current_admin_id"))
      && (updateOk ==> r.toast == "Account " + StatusVerb(s) + " successfully")
      && (!updateOk ==> r.onSuccess == None && r.open && r.log == None)
      && (!updateOk ==> r.toast == FailureToast(s))
  {
    var s := ToggledStatus(u.status);
    if updateOk then
      StatusResult(Some(s), false, Some(AdminLog(u.userId, "account_" + s, LogDetails(s), "current_admin_id")),
                   "Account " + StatusVerb(s) + " successfully")
    else
      StatusResult(None, true, None, FailureToast(s))
  }

  /**
   * A log entry agrees with a success toast when its details are the toast's
   * text with " successfully" replaced by " by admin".
   */
  predicate LogAgreesWithToast(details: string, toast: string) {
    |toast| >= |" successfully"| && details == toast[..|toast| - |" successfully"|] + " by admin"
  }

  /** The corrected handler's log entry always agrees with its toast. */
  lemma IntendedLogAgreesWithToast(u: User)
    ensures var r := ChangeStatusIntended(u, true);
      LogAgreesWithToast(r.log.value.details, r.toast)
  {
    var r := ChangeStatusIntended(u, true);
    var v := StatusVerb(ToggledStatus(u.status));
    assert r.toast[..|r.toast| - |" successfully"|] == "Account " + v;
  }

  /** The handler as written never logs what its toast says, in either direction. */
  lemma LogDisagreesWithToast(u: User)
    ensures var r := ChangeStatus(u, true);
      !LogAgreesWithToast(r.log.value.details, r.toast)
  {
    var r := ChangeStatus(u, true);
    var st := ToggledStatus(u.status);
    var v := StatusVerb(st);
    // Agreeing texts would need the verb to be one letter longer than the status word.
    assert |r.log.value.details| == |st| + 18;
    assert |r.toast| == |v| + 21;
    assert |v| == |st| + 3;
  }

  /** The two handlers differ in the log details only. */
  lemma IntendedDiffersOnlyInLog(u: User, updateOk: bool)
    ensures var r := ChangeStatus(u, updateOk);
      var c := ChangeStatusIntended(u, updateOk);
      && r.onSuccess == c.onSuccess && r.open == c.open && r.toast == c.toast
      && r.log.Some? == c.log.Some?
      && (r.log.Some? ==> r.log.value.(details := c.log.value.details) == c.log.value)
  {
  }

  /**
   * The dialog's toast and the detail page's toast for the status it reports
   * name the same change: they differ only in "Account" against "User".
   */
  lemma PageToastMatchesDialogToast(u: User)
    ensures var r := ChangeStatus(u, true);
      |r.toast| >= 8 && StatusToast(r.onSuccess.value) == "User " + r.toast[8..]
  {
    var r := ChangeStatus(u, true);
    assert r.toast[8..] == StatusVerb(ToggledStatus(u.status)) + " successfully";
  }

  /** Two successful changes in a row restore an "active" or "inactive" user. */
  lemma ChangeStatusTwice(u: User)
    requires u.status == Some("active") || u.status == Some("inactive")
    ensures var u1 := StatusChanged(u, ChangeStatus(u, true).onSuccess.value);
      StatusChanged(u1, ChangeStatus(u1, true).onSuccess.value) == u
  {
  }

  // ---------------------------------------------------------------------------
  // Edit user
  // ---------------------------------------------------------------------------

  datatype EditForm = EditForm(name: string, email: string, contact: string, admin: bool)

  /** The `user` columns the edit sends. */
  datatype UserUpdate = UserUpdate(name: string, email: string, contact: string, admin: bool,
                                   updatedAt: string)

  /** The form as initialised and reset from the user: missing text is '', missing admin false. */
  function FormOf(u: User): (f: EditForm)
    ensures f.name == (if u.name.Some? then u.name.value else "")
    ensures f.email == (if u.email.Some? then u.email.value else "")
    ensures f.contact == (if u.contact.Some? then u.contact.value else "")
    ensures f.admin <==> u.admin == Some(true)
  {
    EditForm(u.name.GetOr(""), u.email.GetOr(""), u.contact.GetOr(""), u.admin.GetOr(false))
  }

  /** The update payload: exactly the four form fields and the timestamp. */
  function PayloadOf(f: EditForm, now: string): (p: UserUpdate)
    ensures p.(updatedAt := now) == UserUpdate(f.name, f.email, f.contact, f.admin, now)
    ensures p.updatedAt == now
  {
    UserUpdate(f.name, f.email, f.contact, f.admin, now)
  }

  /** `{ ...user, ...formData }`: the four fields overwritten, the rest kept. */
  function Merge(u: User, f: EditForm): (r: User)
    ensures FormOf(r) == f
    ensures r.userId == u.userId && r.id == u.id && r.balance == u.balance && r.status == u.status
  {
    u.(name := Some(f.name), email := Some(f.email), contact := Some(f.contact), admin := Some(f.admin))
  }

  /** Saving the untouched form of a fully filled-in user gives the user back. */
  lemma MergeUnchangedForm(u: User)
    requires u.name.Some? && u.email.Some? && u.contact.Some? && u.admin.Some?
    ensures Merge(u, FormOf(u)) == u
  {
  }

  /** Editing twice: the second form wins. */
  lemma MergeTwice(u: User, f: EditForm, g: EditForm)
    ensures Merge(Merge(u, f), g) == Merge(u, g)
  {
  }

  datatype EditResult = EditResult(onSuccess: Option<User>, open: bool, payload: UserUpdate)

  /** `handleSubmit`: the payload is always sent; the merge is reported only on success. */
  function EditSubmit(u: User, f: EditForm, now: string, updateOk: bool): (r: EditResult)
    ensures r.payload == PayloadOf(f, now)
    ensures updateOk ==> r.onSuccess == Some(Merge(u, f)) && !r.open
    ensures !updateOk ==> r.onSuccess == None && r.open
  {
    if updateOk then EditResult(Some(Merge(u, f)), false, PayloadOf(f, now))
    else EditResult(None, true, PayloadOf(f, now))
  }

  /** `handleOpenChange`: closing resets the form from the user. */
  function EditOpenChange(u: User, f: EditForm, open: bool): (r: EditForm)
    ensures !open ==> r == FormOf(u)
    ensures open ==> r == f
  {
    if open then f else FormOf(u)
  }

  /**
   * What the backend is sent and what the page then shows agree: the
   * reported user carries exactly the payload's four fields.
   */
  lemma PayloadMatchesShownUser(u: User, f: EditForm, now: string)
    ensures var r := EditSubmit(u, f, now, true);
      var shown := r.onSuccess.value;
      && shown.name == Some(r.payload.name) && shown.email == Some(r.payload.email)
      && shown.contact == Some(r.payload.contact) && shown.admin == Some(r.payload.admin)
      && r.payload.updatedAt == now
  {
  }

  /** After a successful edit, closing and reopening the dialog shows the saved form. */
  lemma ReopenShowsSavedForm(u: User, f: EditForm, g: EditForm, now: string)
    ensures var shown := UserUpdated(u, EditSubmit(u, f, now, true).onSuccess.value);
      EditOpenChange(shown, EditOpenChange(shown, g, false), true) == f
  {
  }

  /** Cancelling discards the typing: the reset form saves a filled-in user unchanged. */
  lemma CancelledEditIsNoOp(u: User, g: EditForm)
    requires u.name.Some? && u.email.Some? && u.contact.Some? && u.admin.Some?
    ensures Merge(u, EditOpenChange(u, g, false)) == u
  {
  }

  /**
   * A successful edit seen from the detail page: the shown user's form reads
   * back as submitted, and balance and status are as before.
   */
  lemma EditRoundTrip(u: User, f: EditForm, now: string)
    ensures var shown := UserUpdated(u, EditSubmit(u, f, now, true).onSuccess.value);
      FormOf(shown) == f && shown.balance == u.balance && shown.status == u.status
  {
  }
}

=== FILE: admin_users.dfy ===
/**
 * The admin user list: the summary metrics, the search box, ten-per-page
 * slicing with its page-number window and Previous/Next buttons, avatar
 * initials and balance colours; and the user-detail page's handlers and its
 * balance label.
 *
 * A user row is the backend's `user` record; `None` stands for a `null`
 * column. JavaScript compares `null` as `0` (`null < 50` holds) and adds it
 * as `0` (`null + x` is `x`), so a missing balance counts as zero and as low.
 */
module AdminUsers {
  import opened Wrappers
  import opened Text
  import opened Seqs

  datatype User = User(
    userId: string,
    id: Option<nat>,
    name: Option<string>,
    email: Option<string>,
    contact: Option<string>,
    balance: Option<real>,
    status: Option<string>,
    admin: Option<bool>)

  /** `user.balance || 0`. */
  function BalanceOf(u: User): real {
    u.balance.GetOr(0.0)
  }

  /** `user.balance < 50`, where `null` compares as `0`. */
  predicate IsLow(u: User) {
    BalanceOf(u) < 50.0
  }

  function LowFilter(): User -> bool {
    (u: User) => IsLow(u)
  }

  // ---------------------------------------------------------------------------
  // Metrics
  // ---------------------------------------------------------------------------

  datatype Metrics = Metrics(totalUsers: nat, lowBalanceUsers: nat, averageBalance: real,
                             totalBalance: real)

  /** `users.reduce((sum, user) => sum + (user.balance || 0), acc)`. */
  function BalanceFold(acc: real, users: seq<User>): real
    decreases |users|
  {
    if users == [] then acc else BalanceFold(acc + BalanceOf(users[0]), users[1..])
  }

  /** Reference sum of the balances, a missing one counting as zero. */
  function SumBalances(users: seq<User>): real
    decreases |users|
  {
    if users == [] then 0.0 else BalanceOf(users[0]) + SumBalances(users[1..])
  }

  lemma {:induction false} BalanceFoldIsSum(acc: real, users: seq<User>)
    ensures BalanceFold(acc, users) == acc + SumBalances(users)
    decreases |users|
  {
    if users != [] {
      BalanceFoldIsSum(acc + BalanceOf(users[0]), users[1..]);
    }
  }

  /** The four metric cards, before the display rounding. */
  function MetricsOf(users: seq<User>): (m: Metrics)
    ensures m.totalUsers == |users|
    ensures m.lowBalanceUsers <= m.totalUsers
    ensures m.totalBalance == SumBalances(users)
    ensures |users| > 0 ==> m.averageBalance * (|users| as real) == m.totalBalance
    ensures |users| == 0 ==> m == Metrics(0, 0, 0.0, 0.0)
  {
    var total := BalanceFold(0.0, users);
    BalanceFoldIsSum(0.0, users);
    Metrics(|users|, |Filter(LowFilter(), users)|,
            if |users| > 0 then total / (|users| as real) else 0.0, total)
  }

  /** The low-balance count and the count of the rest add up to all users. */
  lemma LowBalancePartition(users: seq<User>)
    ensures MetricsOf(users).lowBalanceUsers + |Filter(Not(LowFilter()), users)| == |users|
  {
    FilterPartition(LowFilter(), users);
  }

  /** Reference count of the users whose balance is below 50. */
  function CountLow(users: seq<User>): nat
    decreases |users|
  {
    if users == [] then 0 else (if IsLow(users[0]) then 1 else 0) + CountLow(users[1..])
  }

  /** The low-balance card counts exactly the users below 50, `null` ones included. */
  lemma {:induction false} LowBalanceCount(users: seq<User>)
    ensures MetricsOf(users).lowBalanceUsers == CountLow(users)
    decreases |users|
  {
    if users != [] {
      LowBalanceCount(users[1..]);
    }
  }

  /** A user with a `null` balance is counted as low. */
  lemma NullBalanceIsLow(u: User)
    requires u.balance == None
    ensures MetricsOf([u]).lowBalanceUsers == 1
  {
    assert [u][1..] == [];
  }

  /** A user with exactly 50 is not low on the list page. */
  lemma FiftyIsNotLow(u: User)
    requires u.balance == Some(50.0)
    ensures MetricsOf([u]).lowBalanceUsers == 0
  {
    assert [u][1..] == [];
  }

  // ---------------------------------------------------------------------------
  // Search
  // ---------------------------------------------------------------------------

  predicate FieldHas(field: Option<string>, term: string) {
    field.Some? && Contains(Lower(field.value), term)
  }

  /** Name, email or contact contain the lowered term, or the numeric id's digits do. */
  predicate Matches(u: User, term: string) {
    var t := Lower(term);
    FieldHas(u.name, t) || FieldHas(u.email, t) || FieldHas(u.contact, t)
    || (u.id.Some? && Contains(NatToString(u.id.value), t))
  }

  function MatchFilter(term: string): User -> bool {
    (u: User) => Matches(u, term)
  }

  /** `filteredUsers`: an empty term returns the list itself. */
  function FilteredUsers(users: seq<User>, term: string): (r: seq<User>)
    ensures term == "" ==> r == users
    ensures term != "" ==> r == Filter(MatchFilter(term), users)
    ensures term != "" ==> forall u :: u in r <==> u in users && Matches(u, term)
  {
    if term == "" then users else Filter(MatchFilter(term), users)
  }

  /** Searching twice for the same term finds the same users. */
  lemma SearchIdempotent(users: seq<User>, term: string)
    ensures FilteredUsers(FilteredUsers(users, term), term) == FilteredUsers(users, term)
  {
    if term != "" {
      FilterIdempotent(MatchFilter(term), users);
    }
  }

  /** The search keeps the list's order: it distributes over concatenation. */
  lemma SearchKeepsOrder(xs: seq<User>, ys: seq<User>, term: string)
    ensures FilteredUsers(xs + ys, term) == FilteredUsers(xs, term) + FilteredUsers(ys, term)
  {
    if term != "" {
      FilterConcat(MatchFilter(term), xs, ys);
    }
  }

  /** A user without name, email, contact or id is found only by the empty search. */
  lemma BlankUserOnlyWithoutTerm(u: User, term: string)
    requires u.name == None && u.email == None && u.contact == None && u.id == None
    ensures u in FilteredUsers([u], term) <==> term == ""
  {
    if term != "" {
      assert [u][1..] == [];
    }
  }

  /** The search ignores case: "RAHUL" finds a user named "rahul". */
  lemma SearchIgnoresCase(u: User)
    requires u.name == Some("rahul")
    ensures FilteredUsers([u], "RAHUL") == [u]
  {
    assert Lower("RAHUL") == "rahul";
    assert Lower("rahul") == "rahul";
    assert OccursAt(Lower(u.name.value), Lower("RAHUL"), 0);
    assert [u][1..] == [];
  }

  // ---------------------------------------------------------------------------
  // Pagination
  // ---------------------------------------------------------------------------

  const ItemsPerPage := 10

  /** `Math.ceil(n / 10)`. */
  function TotalPages(n: nat): (tp: nat)
    ensures tp * ItemsPerPage >= n
    ensures tp > 0 ==> (tp - 1) * ItemsPerPage < n
    ensures tp == 0 <==> n == 0
  {
    (n + ItemsPerPage - 1) / ItemsPerPage
  }

  /** `filtered.slice((p - 1) * 10, (p - 1) * 10 + 10)`; the page number is at least 1. */
  function PageOf(filtered: seq<User>, currentPage: nat): (r: seq<User>)
    requires currentPage >= 1
    ensures |r| <= ItemsPerPage
    ensures currentPage > TotalPages(|filtered|) ==> r == []
    ensures currentPage <= TotalPages(|filtered|) ==>
              r == filtered[(currentPage - 1) * ItemsPerPage..Min(currentPage * ItemsPerPage, |filtered|)]
  {
    var start := (currentPage - 1) * ItemsPerPage;
    var r := Slice(filtered, start, start + ItemsPerPage);
    assert currentPage <= TotalPages(|filtered|) ==>
      r == filtered[start..Min(currentPage * ItemsPerPage, |filtered|)];
    r
  }

  /** Pages `k`, `k + 1`, ... up to the last, concatenated. */
  function PagesFrom(filtered: seq<User>, k: nat): seq<User>
    requires k >= 1
    decreases TotalPages(|filtered|) + 1 - k
  {
    if k > TotalPages(|filtered|) then [] else PageOf(filtered, k) + PagesFrom(filtered, k + 1)
  }

  lemma {:induction false} PagesFromIsSuffix(filtered: seq<User>, k: nat)
    requires k >= 1
    ensures k <= TotalPages(|filtered|) ==> PagesFrom(filtered, k) == filtered[(k - 1) * ItemsPerPage..]
    ensures k > TotalPages(|filtered|) ==> PagesFrom(filtered, k) == []
    decreases TotalPages(|filtered|) + 1 - k
  {
    if k <= TotalPages(|filtered|) {
      PagesFromIsSuffix(filtered, k + 1);
      var a := (k - 1) * ItemsPerPage;
      var b := Min(k * ItemsPerPage, |filtered|);
      if k + 1 <= TotalPages(|filtered|) {
        assert filtered[a..] == filtered[a..b] + filtered[b..];
      } else {
        assert b == |filtered|;
        assert filtered[a..] == filtered[a..b] + [];
      }
    }
  }

  /** Pages 1 to `totalPages`, in order, are exactly the search result. */
  lemma PagesCoverFiltered(filtered: seq<User>)
    ensures PagesFrom(filtered, 1) == filtered
  {
    PagesFromIsSuffix(filtered, 1);
  }

  /** "Showing x to y of n users". */
  function ShowingRange(currentPage: nat, n: nat): (r: (int, int))
    requires currentPage >= 1
    ensures currentPage <= TotalPages(n) ==> 1 <= r.0 <= r.1 <= n
  {
    ((currentPage - 1) * ItemsPerPage + 1, Min(currentPage * ItemsPerPage, n))
  }

  /** On a page that exists, the caption counts exactly the rows shown. */
  lemma ShowingMatchesPage(filtered: seq<User>, currentPage: nat)
    requires 1 <= currentPage <= TotalPages(|filtered|)
    ensures var (x, y) := ShowingRange(currentPage, |filtered|);
      y - x + 1 == |PageOf(filtered, currentPage)|
  {
  }

  /** The first page number of the window of up to five buttons. */
  function WindowStart(totalPages: nat, currentPage: int): int {
    if totalPages <= 5 then 1
    else if currentPage <= 3 then 1
    else if currentPage >= totalPages - 2 then totalPages - 4
    else currentPage - 2
  }

  /** The page-number buttons. */
  function PageWindow(totalPages: nat, currentPage: int): (w: seq<int>)
    ensures |w| == Min(totalPages, 5)
    ensures forall i :: 0 <= i < |w| ==> 1 <= w[i] <= totalPages
    ensures forall i :: 0 < i < |w| ==> w[i] == w[i - 1] + 1
    ensures 1 <= currentPage <= totalPages ==> currentPage in w
  {
    var start := WindowStart(totalPages, currentPage);
    var w := seq(Min(totalPages, 5), i => start + i);
    assert 1 <= currentPage <= totalPages ==> w[currentPage - start] == currentPage;
    w
  }

  /** Window of page 6 of 10: pages 4 to 8, centred on the current one. */
  lemma WindowCentred()
    ensures PageWindow(10, 6) == [4, 5, 6, 7, 8]
  {
  }

  /** Previous: `Math.max(p - 1, 1)`. */
  function Previous(currentPage: int): (p: int)
    ensures p >= 1
    ensures currentPage > 1 ==> p == currentPage - 1
  {
    Max(currentPage - 1, 1)
  }

  /** Next: `Math.min(p + 1, totalPages)`. */
  function Next(currentPage: int, totalPages: nat): (p: int)
    ensures p <= totalPages
    ensures currentPage < totalPages ==> p == currentPage + 1
  {
    Min(currentPage + 1, totalPages)
  }

  /** From a page in range, both buttons stay in range. */
  lemma ButtonsStayInRange(currentPage: int, totalPages: nat)
    requires 1 <= currentPage <= totalPages
    ensures 1 <= Previous(currentPage) <= totalPages
    ensures 1 <= Next(currentPage, totalPages) <= totalPages
  {
  }

  // ---------------------------------------------------------------------------
  // The list page's search box and current page
  // ---------------------------------------------------------------------------

  datatype ListState = ListState(users: seq<User>, searchTerm: string, currentPage: nat)

  predicate ValidList(s: ListState) {
    s.currentPage >= 1
  }

  function Shown(s: ListState): (r: seq<User>)
    requires ValidList(s)
    ensures |r| <= ItemsPerPage
  {
    PageOf(FilteredUsers(s.users, s.searchTerm), s.currentPage)
  }

  /** As written: typing in the search box keeps the current page number. */
  function SetSearch(s: ListState, term: string): (r: ListState)
    ensures r.currentPage == s.currentPage && r.users == s.users && r.searchTerm == term
  {
    s.(searchTerm := term)
  }

  /**
   * On page 2, a search narrowing the list to at most ten users leaves an
   * empty table ("No users found") although users match.
   */
  lemma SearchOnPageTwoShowsNothing(s: ListState, term: string)
    requires s.currentPage == 2
    requires 1 <= |FilteredUsers(s.users, term)| <= ItemsPerPage
    ensures ValidList(SetSearch(s, term))
    ensures Shown(SetSearch(s, term)) == []
    ensures |FilteredUsers(SetSearch(s, term).users, term)| > 0
  {
  }

  /** The search box as intended: a new term starts again from page 1. */
  function SetSearchFromFirstPage(s: ListState, term: string): (r: ListState)
    ensures ValidList(r)
    ensures r.users == s.users && r.searchTerm == term
    ensures |Shown(r)| == Min(ItemsPerPage, |FilteredUsers(s.users, term)|)
  {
    s.(searchTerm := term, currentPage := 1)
  }

  /** From the first page, matching users are always on screen. */
  lemma FirstPageShowsMatches(s: ListState, term: string)
    ensures Shown(SetSearchFromFirstPage(s, term)) == [] <==> FilteredUsers(s.users, term) == []
  {
  }

  // ---------------------------------------------------------------------------
  // Initials
  // ---------------------------------------------------------------------------

  /** `s.split(' ')`: at least one piece, empty pieces kept. */
  function Words(s: string): (w: seq<string>)
    ensures |w| >= 1
    decreases |s|
  {
    if s == "" then [""]
    else if s[0] == ' ' then [""] + Words(s[1..])
    else
      var rest := Words(s[1..]);
      [[s[0]] + rest[0]] + rest[1..]
  }

  /** `.map(word => word[0]).join('')`: an empty word contributes nothing. */
  function FirstChars(words: seq<string>): string
    decreases |words|
  {
    if words == [] then ""
    else (if words[0] == "" then "" else [words[0][0]]) + FirstChars(words[1..])
  }

  /**
   * Reference: the characters that begin a word, that is, the non-spaces at
   * the start of `s` or right after a space (`afterSpace` says whether the
   * character before `s` was one).
   */
  function WordStarts(s: string, afterSpace: bool): (r: string)
    ensures |r| <= |s|
    decreases |s|
  {
    if s == "" then ""
    else (if s[0] != ' ' && afterSpace then [s[0]] else "") + WordStarts(s[1..], s[0] == ' ')
  }

  lemma {:induction false} FirstCharsOfWords(s: string)
    ensures FirstChars(Words(s)) == WordStarts(s, true)
    ensures FirstChars(Words(s)[1..]) == WordStarts(s, false)
    decreases |s|
  {
    if s != "" {
      FirstCharsOfWords(s[1..]);
      var rest := Words(s[1..]);
      if s[0] == ' ' {
        assert Words(s)[1..] == rest;
      } else {
        assert Words(s)[1..] == rest[1..];
      }
    }
  }

  /** The pipeline `split(' ').map(w => w[0]).join('').toUpperCase().slice(0, 2)`. */
  function InitialsOf(name: string): (r: string)
    ensures |r| == Min(2, |WordStarts(name, true)|)
    ensures r == Upper(WordStarts(name, true))[..|r|]
  {
    FirstCharsOfWords(name);
    var s := Upper(FirstChars(Words(name)));
    s[..Min(2, |s|)]
  }

  /** The list page's avatar: `getInitials(user.name || 'UU')`. */
  function AvatarInitials(name: Option<string>): (r: string)
    ensures |r| <= 2
    ensures name.None? || name.value == "" ==> r == "U"
    ensures name.Some? && name.value != "" ==> r == InitialsOf(name.value)
  {
    assert WordStarts("UU", true) == "U" by {
      assert "UU"[1..] == "U";
      assert "U"[1..] == "";
    }
    if name.None? || name.value == "" then InitialsOf("UU") else InitialsOf(name.value)
  }

  /** The detail page's `getInitials`: "U" for a missing or empty name. */
  function DetailInitials(name: Option<string>): (r: string)
    ensures |r| <= 2
    ensures name.None? || name.value == "" ==> r == "U"
    ensures name.Some? && name.value != "" ==> r == InitialsOf(name.value)
  {
    if name.None? || name.value == "" then "U" else InitialsOf(name.value)
  }

  /** The two pages always draw the same initials. */
  lemma InitialsAgree(name: Option<string>)
    ensures AvatarInitials(name) == DetailInitials(name)
  {
  }

  lemma WordStartsScenario()
    ensures WordStarts("ravi  kumar", true) == "rk"
  {
  }

  /** The initials are the first two word starts, upper-cased. */
  lemma InitialsFromStarts(name: string, starts: string)
    requires WordStarts(name, true) == starts
    ensures InitialsOf(name) == Upper(starts)[..Min(2, |starts|)]
  {
  }

  /** "ravi  kumar" has initials "RK": the doubled space adds nothing. */
  lemma UpperScenario()
    ensures Upper("rk") == "RK"
  {
  }

  lemma InitialsScenario()
    ensures InitialsOf("ravi  kumar") == "RK"
  {
    WordStartsScenario();
    UpperScenario();
    InitialsFromStarts("ravi  kumar", "rk");
  }

  // ---------------------------------------------------------------------------
  // Balance colour and the detail page's label
  // ---------------------------------------------------------------------------

  datatype BalanceTone = Red | Amber | Blue | Green

  /** `getBalanceColor`; a `null` balance compares as `0`. */
  function BalanceColor(balance: Option<real>): (c: BalanceTone)
    ensures var b := balance.GetOr(0.0);
      && (c == Red <==> b < 0.0)
      && (c == Amber <==> 0.0 <= b < 50.0)
      && (c == Blue <==> 50.0 <= b < 100.0)
      && (c == Green <==> 100.0 <= b)
  {
    var b := balance.GetOr(0.0);
    if b < 0.0 then Red else if b < 50.0 then Amber else if b < 100.0 then Blue else Green
  }

  /** The "Low Balance" badge shows exactly on red and amber rows. */
  lemma LowBadgeMatchesColor(u: User)
    ensures IsLow(u) <==> BalanceColor(u.balance) in {Red, Amber}
  {
  }

  /** The detail page: more than 50 is "Sufficient", anything else (and `null`) "Low". */
  function SufficientBalance(balance: Option<real>): (ok: bool)
    ensures ok <==> balance.Some? && balance.value > 50.0
  {
    balance.Some? && balance.value > 50.0
  }

  /** The two pages disagree about a user exactly when the balance is 50. */
  lemma LowLabelsDisagreeOnlyAtFifty(u: User)
    ensures IsLow(u) != !SufficientBalance(u.balance) <==> u.balance == Some(50.0)
  {
  }

  // ---------------------------------------------------------------------------
  // The detail page's handlers
  // ---------------------------------------------------------------------------

  /** `handleBalanceAdded`: only the balance changes. */
  function BalanceAdded(u: User, newBalance: real): (r: User)
    ensures r.balance == Some(newBalance)
    ensures r.(balance := u.balance) == u
  {
    u.(balance := Some(newBalance))
  }

  /** `handleStatusChanged`: only the status changes. */
  function StatusChanged(u: User, newStatus: string): (r: User)
    ensures r.status == Some(newStatus)
    ensures r.(status := u.status) == u
  {
    u.(status := Some(newStatus))
  }

  /** The toast after a status change. */
  function StatusToast(newStatus: string): (t: string)
    ensures newStatus == "active" ==> t == "User activated successfully"
    ensures newStatus != "active" ==> t == "User deactivated successfully"
  {
    "User " + (if newStatus == "active" then "activated" else "deactivated") + " successfully"
  }

  /** `handleUserUpdated`: the record from the edit dialog replaces the shown one. */
  function UserUpdated(u: User, updated: User): (r: User)
    ensures r == updated
  {
    updated
  }

  /** Two balance updates: the later one wins and nothing else moved. */
  lemma BalanceAddedTwice(u: User, a: real, b: real)
    ensures BalanceAdded(BalanceAdded(u, a), b) == BalanceAdded(u, b)
  {
  }
}

=== FILE: birth_registration.dfy ===
/**
 * The birth certificate's registration number: a prefix, the submit time
 * as year, month, day, hour and minute, and a seven-digit random suffix.
 * The clock's fields and `Math.random()`'s draw are inputs.
 */
module BirthRegistration {
  import opened Text

  const DefaultPrefix := "B"
  const SuffixRange := 10000000

  /** The clock fields `new Date()` supplies, as JavaScript numbers them. */
  datatype Clock = Clock(year: nat, month0: nat, day: nat, hours: nat, minutes: nat)

  predicate ValidClock(c: Clock) {
    c.month0 < 12 && 1 <= c.day <= 31 && c.hours < 24 && c.minutes < 60
  }

  /** `n.toString().padStart(2, '0')`. */
  function TwoDigits(n: nat): (r: string)
    requires n < 100
    ensures |r| == 2 && AllDigits(r) && DigitsValue(r) == n
  {
    PaddedRoundTrip(n, 2);
    PaddedLength(n, 2);
    PadStart(NatToString(n), 2, '0')
  }

  /** `Math.floor(r * 10000000)` for a draw `0 <= r < 1`. */
  function SuffixValue(r: real): (n: nat)
    requires 0.0 <= r < 1.0
    ensures n < SuffixRange
    ensures n as real <= r * SuffixRange as real < n as real + 1.0
  {
    (r * SuffixRange as real).Floor
  }

  /** The suffix, zero-padded to seven digits. */
  function Suffix(r: real): (s: string)
    requires 0.0 <= r < 1.0
    ensures |s| == 7 && AllDigits(s) && DigitsValue(s) == SuffixValue(r)
  {
    PaddedRoundTrip(SuffixValue(r), 7);
    PaddedLength(SuffixValue(r), 7);
    PadStart(NatToString(SuffixValue(r)), 7, '0')
  }

  /** The timestamp part: year, then month (1 to 12), day, hour and minute as two digits each. */
  function Timestamp(c: Clock): (t: string)
    requires ValidClock(c)
    ensures AllDigits(t)
    ensures |t| == |NatToString(c.year)| + 8
  {
    var y := NatToString(c.year);
    var a, b, h, m := TwoDigits(c.month0 + 1), TwoDigits(c.day), TwoDigits(c.hours), TwoDigits(c.minutes);
    var t := y + a + b + h + m;
    assert |a| == |b| == |h| == |m| == 2;
    t
  }

  /** `generateRegistrationNo(prefix)`. */
  function RegistrationNo(prefix: string, c: Clock, r: real): (s: string)
    requires ValidClock(c) && 0.0 <= r < 1.0
    ensures |s| == |prefix| + |NatToString(c.year)| + 15
    ensures s[..|prefix|] == prefix
    ensures AllDigits(s[|prefix|..])
    ensures 1000 <= c.year <= 9999 ==> |s| == |prefix| + 19
  {
    YearLength(c.year);
    var s := prefix + Timestamp(c) + Suffix(r);
    assert s[|prefix|..] == Timestamp(c) + Suffix(r);
    s
  }

  /** A year from 1000 to 9999 is written with four digits. */
  lemma YearLength(year: nat)
    ensures 1000 <= year <= 9999 ==> |NatToString(year)| == 4
  {
    if 1000 <= year <= 9999 {
      assert Pow10(4) == 10000 && Pow10(3) == 1000;
      NatToStringLength(year, 4);
      NatToStringMinLength(year, 4);
    }
  }

  /** The page calls it with the default prefix: a "B" and then 19 digits. */
  lemma DefaultNumberShape(c: Clock, r: real)
    requires ValidClock(c) && 0.0 <= r < 1.0
    requires 1000 <= c.year <= 9999
    ensures var s := RegistrationNo(DefaultPrefix, c, r); |s| == 20 && s[0] == 'B' && AllDigits(s[1..])
  {
  }

  /** The fields a number reads back as. */
  datatype Decoded = Decoded(year: nat, month: nat, day: nat, hours: nat, minutes: nat, suffix: nat)

  /**
   * Reading a number with a four-digit year back: the digit groups after the
   * prefix, by their fixed widths.
   */
  function Decode(s: string, prefixLength: nat): Decoded
    requires |s| == prefixLength + 19 && AllDigits(s[prefixLength..])
  {
    var d := s[prefixLength..];
    assert forall i :: 0 <= i <= 19 ==> AllDigits(d[..i]) && AllDigits(d[i..]);
    Decoded(DigitsValue(d[0..4]), DigitsValue(d[4..6]), DigitsValue(d[6..8]),
            DigitsValue(d[8..10]), DigitsValue(d[10..12]), DigitsValue(d[12..19]))
  }

  /**
   * Decoding the generated number recovers the clock (with the month counted
   * from 1) and the drawn suffix.
   */
  lemma DecodeRoundTrip(prefix: string, c: Clock, r: real)
    requires ValidClock(c) && 0.0 <= r < 1.0
    requires 1000 <= c.year <= 9999
    ensures Decode(RegistrationNo(prefix, c, r), |prefix|)
      == Decoded(c.year, c.month0 + 1, c.day, c.hours, c.minutes, SuffixValue(r))
  {
    YearLength(c.year);
    NatToStringRoundTrip(c.year);
    var y := NatToString(c.year);
    var d := RegistrationNo(prefix, c, r)[|prefix|..];
    assert d == y + TwoDigits(c.month0 + 1) + TwoDigits(c.day) + TwoDigits(c.hours)
                + TwoDigits(c.minutes) + Suffix(r);
    assert d[0..4] == y;
    assert d[4..6] == TwoDigits(c.month0 + 1);
    assert d[6..8] == TwoDigits(c.day);
    assert d[8..10] == TwoDigits(c.hours);
    assert d[10..12] == TwoDigits(c.minutes);
    assert d == Timestamp(c) + Suffix(r) && |Timestamp(c)| == 12;
    assert d[12..19] == Suffix(r);
  }

  /** Two draws with different suffixes give different numbers at the same minute. */
  lemma DistinctDrawsDistinctNumbers(prefix: string, c: Clock, r1: real, r2: real)
    requires ValidClock(c) && 0.0 <= r1 < 1.0 && 0.0 <= r2 < 1.0
    requires 1000 <= c.year <= 9999
    requires SuffixValue(r1) != SuffixValue(r2)
    ensures RegistrationNo(prefix, c, r1) != RegistrationNo(prefix, c, r2)
  {
    DecodeRoundTrip(prefix, c, r1);
    DecodeRoundTrip(prefix, c, r2);
  }
}

=== FILE: expenses.dfy ===
/**
 * A row of the `expenses` table as the backend-backed tracker holds it in
 * memory, and its projection onto the amounts the summary cards add up.
 */
module Expenses {
  import opened Wrappers
  import LedgerTotals

  /**
   * One ledger entry. `id` is absent on entries the page prepends itself
   * after an insert (it never reads the inserted row back); `notes` may be
   * `null` on fetched rows; `userId` is the owner's id, which may still be
   * undefined when the profile has not loaded.
   */
  datatype Entry = Entry(
    id: Option<string>,
    title: string,
    category: string,
    date: string,
    notes: Option<string>,
    profit: real,
    loss: real,
    createdAt: string,
    userId: Option<string>)

  /** The amounts of each entry, in order. */
  function AmountsOf(expenses: seq<Entry>): (r: seq<LedgerTotals.Amount>)
    ensures |r| == |expenses|
    ensures forall i :: 0 <= i < |expenses| ==>
              r[i] == LedgerTotals.Amount(expenses[i].profit, expenses[i].loss)
  {
    seq(|expenses|, i requires 0 <= i < |expenses| =>
      LedgerTotals.Amount(expenses[i].profit, expenses[i].loss))
  }

  /** The three cards of the page, over every entry whatever the filter shows. */
  function TotalsOf(expenses: seq<Entry>): (t: LedgerTotals.Totals)
    ensures t.totalProfit == LedgerTotals.SumProfit(AmountsOf(expenses))
    ensures t.totalLoss == LedgerTotals.SumLoss(AmountsOf(expenses))
    ensures t.net == t.totalProfit - t.totalLoss
  {
    LedgerTotals.TotalsOf(AmountsOf(expenses))
  }

  lemma AmountsOfPrepend(e: Entry, expenses: seq<Entry>)
    ensures AmountsOf([e] + expenses) == [LedgerTotals.Amount(e.profit, e.loss)] + AmountsOf(expenses)
  {
  }
}

=== FILE: government_directory.dfy ===
/**
 * The government services directory: a constant list of links, a search box
 * matched against title and description, and category buttons with 'All'
 * as the wildcard. When nothing is shown, "Clear all filters" resets both.
 */
module GovernmentDirectory {
  import opened Text
  import opened Seqs

  datatype Link = Link(id: nat, title: string, description: string, url: string, category: string)

  const All := "All"

  const Links: seq<Link> := [
    Link(1, "Aadhaar Card (UIDAI)", "Official portal for Aadhaar enrollment, updates, and downloads.",
         "https://uidai.gov.in/", "Identity"),
    Link(2, "National Portal of India",
         "Single window access to information and services being provided by the Indian Government.",
         "https://www.india.gov.in/", "General"),
    Link(3, "Ration Card (NFSA)",
         "National Food Security Act portal for ration card details and food grain distribution.",
         "https://nfsa.gov.in/", "Social Security"),
    Link(4, "PAN Card (Income Tax)", "Apply for new PAN card, corrections, and link Aadhaar with PAN.",
         "https://www.incometax.gov.in/iec/foportal/", "Finance"),
    Link(5, "Voter ID (ECI)",
         "Election Commission of India portal for voter registration and electoral roll search.",
         "https://voters.eci.gov.in/", "Identity"),
    Link(6, "Passport Seva", "Online Passport Seva for new passport application and renewal.",
         "https://www.passportindia.gov.in/", "Travel"),
    Link(7, "DigiLocker", "Digital wallet to access authentic digital documents.",
         "https://www.digilocker.gov.in/", "General"),
    Link(8, "PMJAY (Ayushman Bharat)", "National Health Authority portal for Ayushman Bharat scheme.",
         "https://pmjay.gov.in/", "Health")]

  const Categories: seq<string> := [All, "Identity", "General", "Social Security", "Finance", "Travel", "Health"]

  /** The search box and the selected category button. */
  datatype Page = Page(searchQuery: string, selectedCategory: string)

  const Opening := Page("", All)

  /** Title or description contains the query, ignoring case. */
  predicate TextMatch(l: Link, query: string) {
    Contains(Lower(l.title), Lower(query)) || Contains(Lower(l.description), Lower(query))
  }

  predicate Shown(l: Link, p: Page) {
    TextMatch(l, p.searchQuery) && (p.selectedCategory == All || l.category == p.selectedCategory)
  }

  function ShownFilter(p: Page): Link -> bool {
    (l: Link) => Shown(l, p)
  }

  /** `filteredLinks` over a list of links. */
  function Filtered(links: seq<Link>, p: Page): (r: seq<Link>)
    ensures |r| <= |links|
    ensures forall l :: l in r <==>
              l in links && TextMatch(l, p.searchQuery) && (p.selectedCategory == All || l.category == p.selectedCategory)
  {
    Filter(ShownFilter(p), links)
  }

  /** What the page lists. */
  function Visible(p: Page): (r: seq<Link>)
    ensures forall l :: l in r <==> l in Links && Shown(l, p)
  {
    Filtered(Links, p)
  }

  /** The empty-state panel, with its "Clear all filters" button, appears when nothing is listed. */
  predicate EmptyState(p: Page) {
    |Visible(p)| == 0
  }

  /** "Clear all filters": both the query and the category go back to their opening values. */
  function ClearFilters(p: Page): (q: Page)
    ensures q == Opening
  {
    Page("", All)
  }

  /** The empty query matches every link. */
  lemma EmptyQueryMatches(l: Link)
    ensures TextMatch(l, "")
  {
    ContainsEmpty(Lower(l.title));
  }

  function CategoryFilter(category: string): Link -> bool {
    (l: Link) => category == All || l.category == category
  }

  /** With an empty query only the category button decides. */
  lemma EmptyQueryIsCategory(links: seq<Link>, category: string)
    ensures Filtered(links, Page("", category)) == Filter(CategoryFilter(category), links)
  {
    forall l | l in links ensures ShownFilter(Page("", category))(l) == CategoryFilter(category)(l) {
      EmptyQueryMatches(l);
    }
    FilterExt(ShownFilter(Page("", category)), CategoryFilter(category), links);
  }

  /** The page as it opens lists every link, in order. */
  lemma OpeningShowsAll(links: seq<Link>)
    ensures Filtered(links, Opening) == links
  {
    EmptyQueryIsCategory(links, All);
    FilterAllPass(CategoryFilter(All), links);
  }

  /** Clearing the filters from any state lists all eight links again. */
  lemma ClearRestoresAll(p: Page)
    ensures Visible(ClearFilters(p)) == Links
    ensures !EmptyState(ClearFilters(p))
  {
    OpeningShowsAll(Links);
  }

  /** Filtering the result again changes nothing. */
  lemma FilterIdempotentOnLinks(links: seq<Link>, p: Page)
    ensures Filtered(Filtered(links, p), p) == Filtered(links, p)
  {
    FilterIdempotent(ShownFilter(p), links);
  }

  /** The result keeps list order. */
  lemma FilterKeepsOrder(xs: seq<Link>, ys: seq<Link>, p: Page)
    ensures Filtered(xs + ys, p) == Filtered(xs, p) + Filtered(ys, p)
  {
    FilterConcat(ShownFilter(p), xs, ys);
  }

  function CategoriesOf(links: seq<Link>): (cs: seq<string>)
    ensures |cs| == |links| && forall i :: 0 <= i < |links| ==> cs[i] == links[i].category
  {
    seq(|links|, i requires 0 <= i < |links| => links[i].category)
  }

  lemma LinkCategories()
    ensures CategoriesOf(Links)
      == ["Identity", "General", "Social Security", "Finance", "Identity", "Travel", "General", "Health"]
  {
  }

  /**
   * Every link's category has its own button, and 'All' is not a category
   * of any link, so it only ever acts as the wildcard.
   */
  lemma EveryCategoryHasButton()
    ensures forall l :: l in Links ==> l.category in Categories[1..] && l.category != All
  {
    LinkCategories();
    forall l | l in Links ensures l.category in Categories[1..] && l.category != All {
      var i :| 0 <= i < |Links| && Links[i] == l;
      assert l.category == CategoriesOf(Links)[i];
    }
  }

  /**
   * With an empty query the category buttons other than 'All' split the
   * list: a link is listed under a button exactly when the button is its
   * category, and exactly one button is.
   */
  lemma ButtonsPartitionLinks(l: Link, c: string)
    requires l in Links && c in Categories[1..]
    ensures l in Visible(Page("", c)) <==> l.category == c
    ensures l.category in Categories[1..]
  {
    EmptyQueryMatches(l);
    EveryCategoryHasButton();
    assert c != All;
  }

  /** The button strings are distinct, so "exactly one button" holds. */
  lemma CategoriesDistinct()
    ensures forall i, j :: 0 <= i < j < |Categories| ==> Categories[i] != Categories[j]
  {
  }

  /** A capitalised "Aadhaar" in a field is found by the lower-case query. */
  lemma CapitalisedFound(s: string, i: nat)
    requires i + 7 <= |s| && s[i..i + 7] == "Aadhaar"
    ensures Contains(Lower(s), Lower("aadhaar"))
  {
    assert Lower(s)[i..i + 7] == Lower(s[i..i + 7]);
    assert Lower("Aadhaar") == "aadhaar" == Lower("aadhaar");
    ContainsAt(Lower(s), "aadhaar", i);
  }

  lemma TitleHasAadhaar()
    ensures TextMatch(Links[0], "aadhaar")
  {
    var t := Links[0].title;
    assert t[..7] == "Aadhaar";
    CapitalisedFound(t, 0);
  }

  lemma DescriptionHasAadhaar()
    ensures TextMatch(Links[3], "aadhaar")
  {
    var d := Links[3].description;
    assert d[46..53] == "Aadhaar";
    CapitalisedFound(d, 46);
  }

  /** "aadhaar" finds the UIDAI link by its title and the PAN link by its description. */
  lemma AadhaarSearch()
    ensures Links[0] in Visible(Page("aadhaar", All))
    ensures Links[3] in Visible(Page("aadhaar", All))
  {
    TitleHasAadhaar();
    DescriptionHasAadhaar();
  }
}

=== FILE: js_number.dfy ===
/**
 * JavaScript's `parseFloat` on form text, and the `parseFloat(x) || 0`
 * idiom the pages use to turn a form field into an amount.
 *
 * `None` stands for `NaN`. The accepted prefix is: leading blanks, an
 * optional sign, decimal digits with an optional `.` fraction; whatever
 * follows the longest such prefix is ignored, as `parseFloat` does.
 */
module JsNumber {
  import opened Wrappers
  import opened Text

  /**
   * The white space `parseFloat` skips: tab, vertical tab, form feed, the
   * byte-order mark, the space separators (space, no-break space, ogham space
   * mark, the spaces U+2000 to U+200A, narrow no-break, medium mathematical
   * and ideographic space) and the line terminators.
   */
  predicate IsBlank(c: char) {
    if c <= ' ' then c == ' ' || '\t' <= c <= '\r'  // tab, line feed, vertical tab, form feed, carriage return
    else
      || c == '\U{A0}' || c == '\U{1680}' || ('\U{2000}' <= c <= '\U{200A}')
      || c == '\U{2028}' || c == '\U{2029}' || c == '\U{202F}' || c == '\U{205F}'
      || c == '\U{3000}' || c == '\U{FEFF}'
  }

  /** `s` without its leading blanks. */
  function TrimStart(s: string): (r: string)
    ensures |r| <= |s| && r == s[|s| - |r|..]
    ensures r == "" || !IsBlank(r[0])
    decreases |s|
  {
    if s != "" && IsBlank(s[0]) then TrimStart(s[1..]) else s
  }

  /** The length of the run of digits `s` starts with. */
  function DigitRun(s: string): (k: nat)
    ensures k <= |s|
    ensures AllDigits(s[..k])
    ensures k == |s| || !IsDigit(s[k])
    decreases |s|
  {
    if s != "" && IsDigit(s[0]) then 1 + DigitRun(s[1..]) else 0
  }

  /** The digits after a leading `.`, or nothing when `rest` does not start with one. */
  function FractionOf(rest: string): (f: string)
    ensures AllDigits(f)
  {
    if rest != "" && rest[0] == '.' then rest[1..][..DigitRun(rest[1..])] else ""
  }

  /** The value of `d.f`: the integer digits plus the fraction digits scaled down. */
  function DecimalValue(d: string, f: string): (x: real)
    requires AllDigits(d) && AllDigits(f)
    ensures x >= DigitsValue(d) as real
  {
    DigitsValue(d) as real + DigitsValue(f) as real / Pow10(|f|) as real
  }

  /** Digits, optionally followed by `.` and more digits; at least one digit overall. */
  function ParseUnsigned(t: string): (r: Option<real>)
    ensures r.Some? ==> r.value >= 0.0
  {
    var k := DigitRun(t);
    var f := FractionOf(t[k..]);
    if k == 0 && f == "" then None else Some(DecimalValue(t[..k], f))
  }

  /** An optional sign, then an unsigned numeral. */
  function ParseSigned(t: string): (r: Option<real>)
    ensures r.Some? ==> exists i :: 0 <= i < |t| && IsDigit(t[i])
  {
    if t != "" && t[0] == '-' then
      match ParseUnsigned(t[1..])
      case None => None
      case Some(v) => Some(-v)
    else if t != "" && t[0] == '+' then ParseUnsigned(t[1..])
    else ParseUnsigned(t)
  }

  /** `parseFloat(s)`; `None` is `NaN`. */
  function ParseFloat(s: string): (r: Option<real>)
    ensures r.Some? ==> exists i :: 0 <= i < |s| && IsDigit(s[i])
  {
    SuffixDigit(s, TrimStart(s));
    ParseSigned(TrimStart(s))
  }

  /** A digit of a suffix is a digit of the whole. */
  lemma SuffixDigit(s: string, t: string)
    requires |t| <= |s| && t == s[|s| - |t|..]
    ensures (exists i :: 0 <= i < |t| && IsDigit(t[i])) ==> exists i :: 0 <= i < |s| && IsDigit(s[i])
  {
    if i :| 0 <= i < |t| && IsDigit(t[i]) {
      assert s[|s| - |t| + i] == t[i];
    }
  }

  /** Any leading white space, a vertical tab or a no-break space included, is skipped. */
  lemma BlankPrefixIgnored(c: char, s: string)
    requires IsBlank(c)
    ensures ParseFloat([c] + s) == ParseFloat(s)
  {
    TrimBlank(c, s);
  }

  lemma TrimBlank(c: char, s: string)
    requires IsBlank(c)
    ensures TrimStart([c] + s) == TrimStart(s)
  {
    var t := [c] + s;
    assert t[1..] == s;
  }

  /** `parseFloat(s) || 0`: `NaN` (and zero) become `0`. */
  function OrZero(s: string): (x: real)
    ensures ParseFloat(s).Some? ==> x == ParseFloat(s).value
    ensures ParseFloat(s).None? ==> x == 0.0
  {
    match ParseFloat(s)
    case None => 0.0
    case Some(v) => v
  }

  /** The empty field parses to `NaN`, so it counts as zero. */
  lemma EmptyIsNaN()
    ensures ParseFloat("") == None
    ensures OrZero("") == 0.0
  {
  }

  /** Text without a single digit is `NaN`, so it counts as zero. */
  lemma NoDigitIsZero(s: string)
    requires forall i :: 0 <= i < |s| ==> !IsDigit(s[i])
    ensures ParseFloat(s) == None
    ensures OrZero(s) == 0.0
  {
  }

  lemma {:induction false} DigitRunAll(s: string)
    requires AllDigits(s)
    ensures DigitRun(s) == |s|
    decreases |s|
  {
    if s != "" {
      DigitRunAll(s[1..]);
    }
  }

  lemma {:induction false} TrimStartNoBlank(s: string)
    requires s == "" || !IsBlank(s[0])
    ensures TrimStart(s) == s
  {
  }

  /** A run of digits then a stop: the run is read and the rest ignored. */
  lemma {:induction false} DigitRunStops(d: string, rest: string)
    requires AllDigits(d)
    requires rest == "" || !IsDigit(rest[0])
    ensures DigitRun(d + rest) == |d|
    decreases |d|
  {
    if d != "" {
      assert (d + rest)[1..] == d[1..] + rest;
      DigitRunStops(d[1..], rest);
    }
  }

  /** A non-empty digit string reads as the number it denotes. */
  lemma UnsignedDigits(s: string)
    requires s != "" && AllDigits(s)
    ensures ParseUnsigned(s) == Some(DigitsValue(s) as real)
  {
    DigitRunAll(s);
    assert s[..|s|] == s;
    assert s[|s|..] == "";
  }

  /** A string starting with a digit is parsed without sign or blank handling. */
  lemma StartsWithDigit(s: string)
    requires s != "" && IsDigit(s[0])
    ensures ParseFloat(s) == ParseUnsigned(s)
  {
    TrimStartNoBlank(s);
  }

  /** `parseFloat(String(n))` is `n`: the decimal rendering of a count reads back. */
  lemma NaturalRoundTrip(n: nat)
    ensures ParseFloat(NatToString(n)) == Some(n as real)
  {
    var s := NatToString(n);
    StartsWithDigit(s);
    UnsignedDigits(s);
    NatToStringRoundTrip(n);
  }

  /** `parseFloat("-" + String(n))` is `-n`: a negative amount is kept, not clamped. */
  lemma NegativeKept(n: nat)
    ensures ParseFloat("-" + NatToString(n)) == Some(-(n as real))
    ensures OrZero("-" + NatToString(n)) == -(n as real)
  {
    var s := NatToString(n);
    var t := "-" + s;
    TrimStartNoBlank(t);
    assert t[1..] == s;
    UnsignedDigits(s);
    NatToStringRoundTrip(n);
  }

  /** Digits, a point and fraction digits: the integer part plus the scaled fraction. */
  lemma UnsignedDecimal(d: string, f: string)
    requires d != "" && AllDigits(d) && AllDigits(f)
    ensures ParseUnsigned(d + "." + f) == Some(DecimalValue(d, f))
  {
    var t := d + "." + f;
    assert t == d + ("." + f);
    DigitRunStops(d, "." + f);
    assert t[..|d|] == d;
    var rest := t[|d|..];
    assert rest == "." + f;
    assert rest[1..] == f;
    DigitRunAll(f);
    assert f[..|f|] == f;
    assert FractionOf(rest) == f;
  }

  /** `parseFloat("<n>.<f>")` for a digit string `f`: `n + f / 10^|f|`. */
  lemma DecimalRoundTrip(n: nat, f: string)
    requires AllDigits(f)
    ensures ParseFloat(NatToString(n) + "." + f) == Some(DecimalValue(NatToString(n), f))
    ensures DecimalValue(NatToString(n), f) == n as real + DigitsValue(f) as real / Pow10(|f|) as real
  {
    var s := NatToString(n);
    var t := s + "." + f;
    assert t[0] == s[0];
    StartsWithDigit(t);
    UnsignedDecimal(s, f);
    NatToStringRoundTrip(n);
  }

  lemma FortyFiveAndAHalfValue()
    ensures DecimalValue("45", "5") == 45.5
  {
    assert "45"[..1] == "4";
    assert DigitsValue("45") == 45;
    assert DigitsValue("5") == 5;
    assert Pow10(1) == 10;
  }

  /** The amount "45.5" reads as 45.5. */
  lemma ParseFortyFiveAndAHalf()
    ensures OrZero("45.5") == 45.5
  {
    FortyFiveAndAHalfParsed();
  }

  lemma FortyFiveAndAHalfParsed()
    ensures ParseFloat("45.5") == Some(45.5)
  {
    FortyFiveAndAHalfValue();
    assert "45" + "." + "5" == "45.5";
    DecimalParsed("45.5", "45", "5", 45.5);
  }

  lemma DecimalParsed(s: string, d: string, f: string, v: real)
    requires s == d + "." + f && d != "" && AllDigits(d) && AllDigits(f)
    requires DecimalValue(d, f) == v
    ensures ParseFloat(s) == Some(v)
  {
    assert s[0] == d[0];
    StartsWithDigit(s);
    UnsignedDecimal(d, f);
  }
}

=== FILE: ledger_totals.dfy ===
/**
 * The "all time" summary cards of both expense trackers: one left fold over
 * the entries that adds each profit to `totalProfit`, each loss to
 * `totalLoss`, and recomputes `net` after every step.
 */
module LedgerTotals {

  /** The two amounts of one ledger entry. */
  datatype Amount = Amount(profit: real, loss: real)

  /** The reduce accumulator `{ totalProfit, totalLoss, net }`. */
  datatype Totals = Totals(totalProfit: real, totalLoss: real, net: real)

  const Zero := Totals(0.0, 0.0, 0.0)

  /** One call of the reducer callback. */
  function Step(acc: Totals, a: Amount): (r: Totals)
    ensures r.net == r.totalProfit - r.totalLoss
  {
    var tp := acc.totalProfit + a.profit;
    var tl := acc.totalLoss + a.loss;
    Totals(tp, tl, tp - tl)
  }

  /** `amounts.reduce(Step, acc)`, left to right. */
  function FoldFrom(acc: Totals, amounts: seq<Amount>): Totals
    decreases |amounts|
  {
    if amounts == [] then acc else FoldFrom(Step(acc, amounts[0]), amounts[1..])
  }

  /** The three cards: the fold of every entry's amounts onto zero. */
  function TotalsOf(amounts: seq<Amount>): (t: Totals)
    ensures t == Totals(SumProfit(amounts), SumLoss(amounts), SumProfit(amounts) - SumLoss(amounts))
  {
    FoldFromSums(Zero, amounts);
    FoldKeepsNet(Zero, amounts);
    FoldFrom(Zero, amounts)
  }

  /** Reference sums, defined independently of the fold. */
  function SumProfit(amounts: seq<Amount>): real
    decreases |amounts|
  {
    if amounts == [] then 0.0 else amounts[0].profit + SumProfit(amounts[1..])
  }

  function SumLoss(amounts: seq<Amount>): real
    decreases |amounts|
  {
    if amounts == [] then 0.0 else amounts[0].loss + SumLoss(amounts[1..])
  }

  /** The fold adds exactly the sums to its starting accumulator. */
  lemma {:induction false} FoldFromSums(acc: Totals, amounts: seq<Amount>)
    ensures FoldFrom(acc, amounts).totalProfit == acc.totalProfit + SumProfit(amounts)
    ensures FoldFrom(acc, amounts).totalLoss == acc.totalLoss + SumLoss(amounts)
    decreases |amounts|
  {
    if amounts != [] {
      FoldFromSums(Step(acc, amounts[0]), amounts[1..]);
    }
  }

  /** `net == totalProfit - totalLoss` holds after every step of the fold. */
  lemma {:induction false} FoldKeepsNet(acc: Totals, amounts: seq<Amount>)
    requires acc.net == acc.totalProfit - acc.totalLoss
    ensures FoldFrom(acc, amounts).net == FoldFrom(acc, amounts).totalProfit - FoldFrom(acc, amounts).totalLoss
    decreases |amounts|
  {
    if amounts != [] {
      FoldKeepsNet(Step(acc, amounts[0]), amounts[1..]);
    }
  }

  /** No entries: all three cards show zero. */
  lemma EmptyTotals()
    ensures TotalsOf([]) == Zero
  {
  }

  /** Prepending one entry adds its amounts to the cards. */
  lemma TotalsOfPrepend(a: Amount, amounts: seq<Amount>)
    ensures TotalsOf([a] + amounts).totalProfit == a.profit + TotalsOf(amounts).totalProfit
    ensures TotalsOf([a] + amounts).totalLoss == a.loss + TotalsOf(amounts).totalLoss
    ensures TotalsOf([a] + amounts).net == TotalsOf(amounts).net + a.profit - a.loss
  {
    assert ([a] + amounts)[1..] == amounts;
  }

  /** Three entries: income 1000, expense 250.50, and 500 against 100. */
  lemma ScenarioThreeEntries()
    ensures TotalsOf([Amount(1000.0, 0.0), Amount(0.0, 250.5), Amount(500.0, 100.0)])
         == Totals(1500.0, 350.5, 1149.5)
  {
  }
}

=== FILE: local_ledger.dfy ===
/**
 * The browser-only expense tracker: entries without a title, identified by
 * the submit time in milliseconds written in decimal, prepended on submit
 * and removed on a confirmed delete. The clock and the confirmation dialog
 * are inputs.
 */
module LocalLedger {
  import opened Text
  import opened Seqs
  import JsNumber
  import LedgerTotals

  datatype LocalEntry = LocalEntry(id: string, date: string, category: string, notes: string,
                                   profit: real, loss: real, createdAt: string)

  datatype LocalForm = LocalForm(date: string, category: string, notes: string,
                                 profit: string, loss: string)

  datatype LocalPage = LocalPage(expenses: seq<LocalEntry>, form: LocalForm)

  function BlankForm(today: string): LocalForm {
    LocalForm(today, "", "", "", "")
  }

  /** The form is rejected without a date, or with neither a profit nor a loss typed. */
  predicate Rejected(form: LocalForm) {
    form.date == "" || (form.profit == "" && form.loss == "")
  }

  function NewEntry(form: LocalForm, nowMillis: nat, createdAt: string): (e: LocalEntry)
    ensures AllDigits(e.id) && DigitsValue(e.id) == nowMillis
    ensures e.date == form.date && e.notes == form.notes
    ensures e.category == (if form.category == "" then "Uncategorized" else form.category)
    ensures JsNumber.ParseFloat(form.profit).None? ==> e.profit == 0.0
    ensures JsNumber.ParseFloat(form.profit).Some? ==> e.profit == JsNumber.ParseFloat(form.profit).value
    ensures JsNumber.ParseFloat(form.loss).None? ==> e.loss == 0.0
    ensures JsNumber.ParseFloat(form.loss).Some? ==> e.loss == JsNumber.ParseFloat(form.loss).value
  {
    NatToStringRoundTrip(nowMillis);
    LocalEntry(NatToString(nowMillis), form.date,
               if form.category == "" then "Uncategorized" else form.category,
               form.notes, JsNumber.OrZero(form.profit), JsNumber.OrZero(form.loss), createdAt)
  }

  /** `handleSubmit`: a rejected form changes nothing; otherwise prepend and reset. */
  function Submit(p: LocalPage, nowMillis: nat, createdAt: string, today: string): (r: LocalPage)
    ensures Rejected(p.form) ==> r == p
    ensures !Rejected(p.form) ==>
              && r.expenses == [NewEntry(p.form, nowMillis, createdAt)] + p.expenses
              && r.form == BlankForm(today)
  {
    if Rejected(p.form) then p
    else LocalPage([NewEntry(p.form, nowMillis, createdAt)] + p.expenses, BlankForm(today))
  }

  /**
   * A submit changes the page exactly when the form has a date and at least
   * one of the two amounts typed; then the list grows by one.
   */
  lemma SubmitAcceptsIff(p: LocalPage, nowMillis: nat, createdAt: string, today: string)
    ensures var q := Submit(p, nowMillis, createdAt, today);
      (q != p <==> p.form.date != "" && (p.form.profit != "" || p.form.loss != ""))
    ensures var q := Submit(p, nowMillis, createdAt, today);
      (q != p ==> |q.expenses| == |p.expenses| + 1)
  {
    var q := Submit(p, nowMillis, createdAt, today);
    if !Rejected(p.form) {
      assert |q.expenses| == |p.expenses| + 1;
    }
  }

  function OtherId(id: string): LocalEntry -> bool {
    (e: LocalEntry) => e.id != id
  }

  /** `deleteExpense`: on confirmation, drop every entry with that id. */
  function Delete(p: LocalPage, id: string, confirmed: bool): (r: LocalPage)
    ensures !confirmed ==> r == p
    ensures confirmed ==> r.expenses == Filter(OtherId(id), p.expenses)
    ensures confirmed ==> forall e :: e in r.expenses <==> e in p.expenses && e.id != id
    ensures r.form == p.form
  {
    if confirmed then p.(expenses := Filter(OtherId(id), p.expenses)) else p
  }

  /** Every id is the decimal rendering of an earlier clock reading. */
  predicate IdsBefore(expenses: seq<LocalEntry>, nowMillis: nat) {
    forall i :: 0 <= i < |expenses| ==>
      AllDigits(expenses[i].id) && expenses[i].id != "" && DigitsValue(expenses[i].id) < nowMillis
  }

  /**
   * When every stored id is an earlier time, the new id is fresh, so deleting
   * the entry just added restores the list exactly.
   */
  lemma DeleteUndoesSubmit(p: LocalPage, nowMillis: nat, createdAt: string, today: string)
    requires !Rejected(p.form)
    requires IdsBefore(p.expenses, nowMillis)
    ensures Delete(Submit(p, nowMillis, createdAt, today), NatToString(nowMillis), true).expenses
         == p.expenses
  {
    var id := NatToString(nowMillis);
    NatToStringRoundTrip(nowMillis);
    forall i | 0 <= i < |p.expenses| ensures p.expenses[i].id != id {
    }
    var e := NewEntry(p.form, nowMillis, createdAt);
    FilterConcat(OtherId(id), [e], p.expenses);
    FilterAllPass(OtherId(id), p.expenses);
  }

  /** A submit keeps the ids-before-now invariant for any later clock reading. */
  lemma SubmitKeepsIdsBefore(p: LocalPage, nowMillis: nat, later: nat, createdAt: string, today: string)
    requires IdsBefore(p.expenses, nowMillis) && nowMillis < later
    ensures IdsBefore(Submit(p, nowMillis, createdAt, today).expenses, later)
  {
    var q := Submit(p, nowMillis, createdAt, today);
    if !Rejected(p.form) {
      forall i | 0 <= i < |q.expenses|
        ensures AllDigits(q.expenses[i].id) && q.expenses[i].id != "" && DigitsValue(q.expenses[i].id) < later
      {
        if i > 0 {
          assert q.expenses[i] == p.expenses[i - 1];
        }
      }
    }
  }

  function AmountsOf(expenses: seq<LocalEntry>): (r: seq<LedgerTotals.Amount>)
    ensures |r| == |expenses|
    ensures forall i :: 0 <= i < |expenses| ==>
              r[i] == LedgerTotals.Amount(expenses[i].profit, expenses[i].loss)
  {
    seq(|expenses|, i requires 0 <= i < |expenses| =>
      LedgerTotals.Amount(expenses[i].profit, expenses[i].loss))
  }

  /** The three cards of this page: the same fold as the backend-backed page. */
  function PageTotals(p: LocalPage): (t: LedgerTotals.Totals)
    ensures t.totalProfit == LedgerTotals.SumProfit(AmountsOf(p.expenses))
    ensures t.totalLoss == LedgerTotals.SumLoss(AmountsOf(p.expenses))
    ensures t.net == t.totalProfit - t.totalLoss
  {
    LedgerTotals.TotalsOf(AmountsOf(p.expenses))
  }

  /** An accepted submit moves each card by exactly the new entry's amounts. */
  lemma SubmitUpdatesTotals(p: LocalPage, nowMillis: nat, createdAt: string, today: string)
    requires !Rejected(p.form)
    ensures var e := NewEntry(p.form, nowMillis, createdAt);
      var t := PageTotals(Submit(p, nowMillis, createdAt, today));
      && t.totalProfit == PageTotals(p).totalProfit + e.profit
      && t.totalLoss == PageTotals(p).totalLoss + e.loss
      && t.net == PageTotals(p).net + e.profit - e.loss
  {
    var e := NewEntry(p.form, nowMillis, createdAt);
    var q := Submit(p, nowMillis, createdAt, today);
    assert q.expenses == [e] + p.expenses;
    AmountsOfPrepend(e, p.expenses);
    LedgerTotals.TotalsOfPrepend(LedgerTotals.Amount(e.profit, e.loss), AmountsOf(p.expenses));
  }

  lemma AmountsOfPrepend(e: LocalEntry, expenses: seq<LocalEntry>)
    ensures AmountsOf([e] + expenses) == [LedgerTotals.Amount(e.profit, e.loss)] + AmountsOf(expenses)
  {
    var xs := AmountsOf([e] + expenses);
    var ys := [LedgerTotals.Amount(e.profit, e.loss)] + AmountsOf(expenses);
    assert |xs| == |ys|;
    forall i | 0 <= i < |xs| ensures xs[i] == ys[i] {
      if i > 0 {
        assert ([e] + expenses)[i] == expenses[i - 1];
      }
    }
  }

  /** A loss-only entry of `n` lowers the net by exactly `n`. */
  lemma SubmitLossOnly(p: LocalPage, n: nat, nowMillis: nat, createdAt: string, today: string)
    requires p.form.date != "" && p.form.profit == "" && p.form.loss == NatToString(n)
    ensures PageTotals(Submit(p, nowMillis, createdAt, today)).net == PageTotals(p).net - n as real
  {
    JsNumber.EmptyIsNaN();
    JsNumber.NaturalRoundTrip(n);
    var e := NewEntry(p.form, nowMillis, createdAt);
    assert e.profit == 0.0 && e.loss == n as real;
    SubmitUpdatesTotals(p, nowMillis, createdAt, today);
  }
}

=== FILE: remote_ledger.dfy ===
/**
 * The backend-backed expense tracker page: the visible-list filter, the
 * submit handler (validation, normalisation, prepend, form reset), the
 * delete handler, the all-time totals, the category badge colour and the
 * export button's guard. Each handler is one state transition; the
 * backend's answer (success or error), the confirmation dialog's answer and
 * the clock are inputs.
 */
module RemoteLedger {
  import opened Wrappers
  import opened Text
  import opened Seqs
  import JsNumber
  import LedgerTotals
  import opened Expenses
  import SheetExport

  /** The signed-in user from the user context; `id` is undefined until the profile loads. */
  datatype ContextUser = ContextUser(id: Option<string>)

  /** The entry form, every field as typed. */
  datatype Form = Form(title: string, date: string, category: string,
                       notes: string, profit: string, loss: string)

  /** The page state. */
  datatype Page = Page(expenses: seq<Entry>, searchTerm: string,
                       selectedCategory: string, form: Form)

  const AllCategories := "all"
  const Uncategorized := "Uncategorized"

  /** The form after mount and after a successful submit: blank, dated today. */
  function BlankForm(today: string): Form {
    Form("", today, "", "", "", "")
  }

  // ---------------------------------------------------------------------------
  // Search and category filter
  // ---------------------------------------------------------------------------

  /** Title or notes contain the term, ignoring case; `null` notes never match. */
  predicate TextMatch(e: Entry, term: string) {
    Contains(Lower(e.title), Lower(term))
    || (e.notes.Some? && Contains(Lower(e.notes.value), Lower(term)))
  }

  function TextFilter(term: string): Entry -> bool {
    (e: Entry) => TextMatch(e, term)
  }

  function CategoryFilter(category: string): Entry -> bool {
    (e: Entry) => e.category == category
  }

  /** The single predicate the two filter passes amount to. */
  predicate Shown(e: Entry, term: string, category: string) {
    TextMatch(e, term) && (category == AllCategories || e.category == category)
  }

  function ShownFilter(term: string, category: string): Entry -> bool {
    (e: Entry) => Shown(e, term, category)
  }

  /**
   * The filter effect: a text pass when the term is non-empty, then a
   * category pass unless "all" is selected.
   */
  function Visible(expenses: seq<Entry>, term: string, category: string): (r: seq<Entry>)
    ensures r == Filter(ShownFilter(term, category), expenses)
    ensures forall e :: e in r <==> e in expenses && Shown(e, term, category)
  {
    var afterSearch := if term != "" then Filter(TextFilter(term), expenses) else expenses;
    var r := if category != AllCategories then Filter(CategoryFilter(category), afterSearch) else afterSearch;
    VisibleIsOnePass(expenses, term, category);
    r
  }

  /** The two passes select exactly the entries `Shown` accepts, in order. */
  lemma VisibleIsOnePass(expenses: seq<Entry>, term: string, category: string)
    ensures var afterSearch := if term != "" then Filter(TextFilter(term), expenses) else expenses;
      (if category != AllCategories then Filter(CategoryFilter(category), afterSearch) else afterSearch)
      == Filter(ShownFilter(term, category), expenses)
  {
    var afterSearch := if term != "" then Filter(TextFilter(term), expenses) else expenses;
    if term == "" {
      forall e | e in expenses ensures TextMatch(e, term) {
        ContainsEmpty(Lower(e.title));
      }
      FilterAllPass(TextFilter(term), expenses);
    }
    assert afterSearch == Filter(TextFilter(term), expenses);
    if category != AllCategories {
      FilterFilter(TextFilter(term), CategoryFilter(category), expenses);
      FilterExt(And(TextFilter(term), CategoryFilter(category)), ShownFilter(term, category), expenses);
    } else {
      FilterExt(TextFilter(term), ShownFilter(term, category), expenses);
    }
  }

  /** An empty term and "all" show every entry, in order. */
  lemma NoFilterShowsAll(expenses: seq<Entry>)
    ensures Visible(expenses, "", AllCategories) == expenses
  {
  }

  /** Filtering the visible list again changes nothing. */
  lemma VisibleIdempotent(expenses: seq<Entry>, term: string, category: string)
    ensures Visible(Visible(expenses, term, category), term, category) == Visible(expenses, term, category)
  {
    FilterIdempotent(ShownFilter(term, category), expenses);
  }

  /** The filter keeps relative order: it distributes over concatenation. */
  lemma VisibleKeepsOrder(xs: seq<Entry>, ys: seq<Entry>, term: string, category: string)
    ensures Visible(xs + ys, term, category) == Visible(xs, term, category) + Visible(ys, term, category)
  {
    FilterConcat(ShownFilter(term, category), xs, ys);
  }

  lemma RentTitles(a: Entry, b: Entry, c: Entry)
    requires a.title == "Rent Payment" && b.title == "Groceries" && c.title == "Car Rental"
    requires b.notes == None
    ensures TextMatch(a, "rent") && !TextMatch(b, "rent") && TextMatch(c, "rent")
  {
    assert Lower("rent") == "rent";
    assert Lower("Rent Payment")[0..4] == "rent";
    assert OccursAt(Lower(a.title), Lower("rent"), 0);
    assert Lower("Car Rental")[4..8] == "rent";
    assert OccursAt(Lower(c.title), Lower("rent"), 4);
    var g := Lower("Groceries");
    forall i | 0 <= i <= |g| - 4 ensures !OccursAt(g, "rent", i) {
      assert g[i..i + 4][1] == g[i + 1] && g[i..i + 4][0] == g[i];
    }
  }

  /** Searching "rent" finds "Rent Payment" and "Car Rental" but not "Groceries". */
  lemma SearchRentScenario(a: Entry, b: Entry, c: Entry)
    requires a.title == "Rent Payment" && b.title == "Groceries" && c.title == "Car Rental"
    requires a.notes == None && b.notes == None && c.notes == None
    ensures Visible([a, b, c], "rent", AllCategories) == [a, c]
  {
    RentTitles(a, b, c);
    var f := ShownFilter("rent", AllCategories);
    assert f(a) && !f(b) && f(c);
    assert [a, b, c][1..] == [b, c] && [b, c][1..] == [c] && [c][1..] == [];
    assert Filter(f, [c]) == [c];
    assert Filter(f, [b, c]) == [c];
    assert Filter(f, [a, b, c]) == [a, c];
  }

  // ---------------------------------------------------------------------------
  // Totals
  // ---------------------------------------------------------------------------

  /** The summary cards read the whole list, never the filtered one. */
  function PageTotals(p: Page): (t: LedgerTotals.Totals)
    ensures t.net == t.totalProfit - t.totalLoss
  {
    TotalsOf(p.expenses)
  }

  /** Typing a search term or choosing a category leaves the totals as they were. */
  lemma TotalsIgnoreFilter(p: Page, term: string, category: string)
    ensures PageTotals(p.(searchTerm := term, selectedCategory := category)) == PageTotals(p)
  {
  }

  // ---------------------------------------------------------------------------
  // Submit
  // ---------------------------------------------------------------------------

  datatype SubmitOutcome = NotLoggedIn | MissingTitleOrDate | InsertFailed | Inserted

  /** The entry built from the form: category defaulted, amounts parsed or zero. */
  function NewEntry(form: Form, user: ContextUser, createdAt: string): (e: Entry)
    ensures e.id == None && e.title == form.title && e.date == form.date
    ensures e.notes == Some(form.notes)
    ensures e.category == (if form.category == "" then Uncategorized else form.category)
    ensures JsNumber.ParseFloat(form.profit).None? ==> e.profit == 0.0
    ensures JsNumber.ParseFloat(form.profit).Some? ==> e.profit == JsNumber.ParseFloat(form.profit).value
    ensures JsNumber.ParseFloat(form.loss).None? ==> e.loss == 0.0
    ensures JsNumber.ParseFloat(form.loss).Some? ==> e.loss == JsNumber.ParseFloat(form.loss).value
    ensures e.userId == user.id
  {
    Entry(None, form.title,
          if form.category == "" then Uncategorized else form.category,
          form.date, Some(form.notes),
          JsNumber.OrZero(form.profit), JsNumber.OrZero(form.loss),
          createdAt, user.id)
  }

  /**
   * `handleSubmit`: reject without a user or without title and date; otherwise
   * insert, and only on success prepend the new entry and reset the form.
   */
  function Submit(p: Page, user: Option<ContextUser>, createdAt: string, today: string,
                  insertOk: bool): (r: (Page, SubmitOutcome))
    ensures user.None? ==> r == (p, NotLoggedIn)
    ensures user.Some? && (p.form.title == "" || p.form.date == "") ==> r == (p, MissingTitleOrDate)
    ensures r.1 == InsertFailed <==> user.Some? && p.form.title != "" && p.form.date != "" && !insertOk
    ensures r.1 != Inserted ==> r.0 == p
    ensures r.1 == Inserted ==>
              && |r.0.expenses| == |p.expenses| + 1
              && r.0.expenses[1..] == p.expenses
              && r.0.expenses[0] == NewEntry(p.form, user.value, createdAt)
              && r.0.form == BlankForm(today)
              && r.0.searchTerm == p.searchTerm
              && r.0.selectedCategory == p.selectedCategory
  {
    if user.None? then (p, NotLoggedIn)
    else if p.form.title == "" || p.form.date == "" then (p, MissingTitleOrDate)
    else if !insertOk then (p, InsertFailed)
    else
      var e := NewEntry(p.form, user.value, createdAt);
      (p.(expenses := [e] + p.expenses, form := BlankForm(today)), Inserted)
  }

  /** After an accepted submit the totals grow by exactly the new entry's amounts. */
  lemma SubmitUpdatesTotals(p: Page, user: Option<ContextUser>, createdAt: string, today: string)
    requires Submit(p, user, createdAt, today, true).1 == Inserted
    ensures var e := NewEntry(p.form, user.value, createdAt);
      var t := PageTotals(Submit(p, user, createdAt, today, true).0);
      && t.totalProfit == PageTotals(p).totalProfit + e.profit
      && t.totalLoss == PageTotals(p).totalLoss + e.loss
  {
    var e := NewEntry(p.form, user.value, createdAt);
    AmountsOfPrepend(e, p.expenses);
    LedgerTotals.TotalsOfPrepend(LedgerTotals.Amount(e.profit, e.loss), AmountsOf(p.expenses));
  }

  /** Profit "" and loss "45.5" are stored as 0 and 45.5. */
  lemma SubmitScenarioProfitEmpty(form: Form, user: ContextUser, createdAt: string)
    requires form.profit == "" && form.loss == "45.5"
    ensures NewEntry(form, user, createdAt).profit == 0.0
    ensures NewEntry(form, user, createdAt).loss == 45.5
  {
    JsNumber.EmptyIsNaN();
    JsNumber.ParseFortyFiveAndAHalf();
  }

  // ---------------------------------------------------------------------------
  // Delete
  // ---------------------------------------------------------------------------

  function OtherId(id: Option<string>): Entry -> bool {
    (e: Entry) => e.id != id
  }

  /**
   * `deleteExpense(id)`: nothing unless confirmed; then the remote delete,
   * and only on success the local removal of every entry with that id.
   */
  function Delete(p: Page, id: Option<string>, confirmed: bool, deleteOk: bool): (r: Page)
    ensures !confirmed || !deleteOk ==> r == p
    ensures confirmed && deleteOk ==>
              && r.expenses == Filter(OtherId(id), p.expenses)
              && (forall e :: e in r.expenses <==> e in p.expenses && e.id != id)
              && r.form == p.form && r.searchTerm == p.searchTerm
  {
    if !confirmed || !deleteOk then p
    else p.(expenses := Filter(OtherId(id), p.expenses))
  }

  /** Deleting an id no entry carries changes nothing. */
  lemma DeleteMissingIdIsNoOp(p: Page, id: Option<string>)
    requires forall i :: 0 <= i < |p.expenses| ==> p.expenses[i].id != id
    ensures Delete(p, id, true, true) == p
  {
    FilterAllPass(OtherId(id), p.expenses);
  }

  /** A successful delete removes as many entries as carried the id, and no others. */
  lemma DeleteCount(p: Page, id: Option<string>)
    ensures |Delete(p, id, true, true).expenses| + |Filter(Not(OtherId(id)), p.expenses)| == |p.expenses|
  {
    FilterPartition(OtherId(id), p.expenses);
  }

  // ---------------------------------------------------------------------------
  // Category badge and export
  // ---------------------------------------------------------------------------

  const DefaultColor := "bg-gray-100 text-gray-800"

  const CategoryColors: map<string, string> := map[
    "Food & Dining" := "bg-orange-100 text-orange-800",
    "Transportation" := "bg-blue-100 text-blue-800",
    "Shopping" := "bg-purple-100 text-purple-800",
    "Entertainment" := "bg-pink-100 text-pink-800",
    "Bills & Utilities" := "bg-gray-100 text-gray-800",
    "Healthcare" := "bg-red-100 text-red-800",
    "Education" := "bg-indigo-100 text-indigo-800",
    "Travel" := "bg-cyan-100 text-cyan-800",
    "Salary" := "bg-emerald-100 text-emerald-800",
    "Freelance" := "bg-lime-100 text-lime-800",
    "Investment" := "bg-amber-100 text-amber-800",
    "Other" := "bg-slate-100 text-slate-800"]

  /** `getCategoryColor`: the palette entry, or neutral grey for any other stored category. */
  function CategoryColor(category: string): (c: string)
    ensures category in CategoryColors ==> c == CategoryColors[category]
    ensures category !in CategoryColors ==> c == DefaultColor
  {
    if category in CategoryColors then CategoryColors[category] else DefaultColor
  }

  /** The categories the add form and the filter offer, in their order. */
  const FormCategories := ["Food & Dining", "Transportation", "Shopping", "Entertainment",
                           "Bills & Utilities", "Healthcare", "Education", "Travel",
                           "Salary", "Freelance", "Investment", "Other"]

  /** Every category the form offers has its own palette entry. */
  lemma FormCategoriesInPalette()
    ensures forall c :: c in FormCategories ==> c in CategoryColors
  {
  }

  /**
   * Among the offered categories, only "Bills & Utilities" renders in the
   * fallback grey, so its badge cannot be told apart from an unknown or
   * uncategorised entry's.
   */
  lemma OnlyBillsLookUncategorized(c: string)
    requires c in FormCategories
    ensures CategoryColor(c) == CategoryColor(Uncategorized) <==> c == "Bills & Utilities"
  {
  }

  /** Any two different offered categories get different badges. */
  lemma FormCategoryColorsDistinct(i: nat, j: nat)
    requires i < j < |FormCategories|
    ensures CategoryColor(FormCategories[i]) != CategoryColor(FormCategories[j])
  {
  }

  /** The default category of the form is not in the palette, so it renders grey. */
  lemma UncategorizedIsGrey()
    ensures CategoryColor(Uncategorized) == DefaultColor
  {
  }

  /**
   * `handleExport`: the export runs only with at least one entry, and then on
   * the whole list, whatever the search and category filter show.
   */
  function HandleExport(p: Page, nowMillis: nat): (d: Option<SheetExport.Download>)
    ensures d.Some? <==> |p.expenses| > 0
    ensures d.Some? ==> |d.value.sheet.cells| == |p.expenses| + 1
  {
    if |p.expenses| > 0 then Some(SheetExport.Export(p.expenses, nowMillis)) else None
  }

  /** The export ignores the filter: changing it does not change the download. */
  lemma ExportIgnoresFilter(p: Page, term: string, category: string, nowMillis: nat)
    ensures HandleExport(p.(searchTerm := term, selectedCategory := category), nowMillis)
         == HandleExport(p, nowMillis)
  {
  }

  // ---------------------------------------------------------------------------
  // Entries prepended without an id
  // ---------------------------------------------------------------------------

  /**
   * As written, the entry a submit prepends has no id, and delete removes
   * every entry whose id equals the one clicked: deleting either of two
   * entries added in one session drops both from the list.
   */
  lemma FreshEntriesDeletedTogether(p: Page, user: ContextUser, t1: string, t2: string,
                                    today: string, second: Form)
    requires p.form.title != "" && p.form.date != ""
    requires second.title != "" && second.date != ""
    ensures var p1 := Submit(p, Some(user), t1, today, true).0;
      var p2 := Submit(p1.(form := second), Some(user), t2, today, true).0;
      var after := Delete(p2, p2.expenses[0].id, true, true);
      && |p2.expenses| == |p.expenses| + 2
      && p2.expenses[1].id == p2.expenses[0].id
      && p2.expenses[1] !in after.expenses
      && |after.expenses| <= |p.expenses|
  {
    var p1 := Submit(p, Some(user), t1, today, true).0;
    var p2 := Submit(p1.(form := second), Some(user), t2, today, true).0;
    var after := Delete(p2, p2.expenses[0].id, true, true);
    assert p2.expenses == [p2.expenses[0], p2.expenses[1]] + p.expenses;
    FilterConcat(OtherId(None), [p2.expenses[0], p2.expenses[1]], p.expenses);
    assert Filter(OtherId(None), [p2.expenses[0], p2.expenses[1]]) == [];
  }

  /**
   * The insert as intended: the backend's answer carries the stored row's id
   * (`None` is an insert error), and that id is the one the page keeps.
   */
  function SubmitReturningId(p: Page, user: Option<ContextUser>, createdAt: string, today: string,
                             insertedId: Option<string>): (r: (Page, SubmitOutcome))
    ensures r.1 == Submit(p, user, createdAt, today, insertedId.Some?).1
    ensures r.1 != Inserted ==> r.0 == p
    ensures r.1 == Inserted ==>
              && r.0.expenses == [NewEntry(p.form, user.value, createdAt).(id := insertedId)] + p.expenses
              && r.0.form == BlankForm(today)
  {
    var (q, outcome) := Submit(p, user, createdAt, today, insertedId.Some?);
    if outcome == Inserted then
      (q.(expenses := [q.expenses[0].(id := insertedId)] + p.expenses), outcome)
    else (q, outcome)
  }

  /**
   * With the stored id kept, deleting the entry just added removes exactly
   * that entry and restores the list as it was before the submit.
   */
  lemma DeleteUndoesSubmit(p: Page, user: ContextUser, createdAt: string, today: string, newId: string)
    requires p.form.title != "" && p.form.date != ""
    requires forall i :: 0 <= i < |p.expenses| ==> p.expenses[i].id != Some(newId)
    ensures var (q, outcome) := SubmitReturningId(p, Some(user), createdAt, today, Some(newId));
      outcome == Inserted && Delete(q, Some(newId), true, true).expenses == p.expenses
  {
    var (q, outcome) := SubmitReturningId(p, Some(user), createdAt, today, Some(newId));
    FilterConcat(OtherId(Some(newId)), [q.expenses[0]], p.expenses);
    FilterAllPass(OtherId(Some(newId)), p.expenses);
  }
}

=== FILE: seqs.dfy ===
/**
 * Order-preserving selection over sequences: the model of JavaScript's
 * `Array.prototype.filter`, which every list page of the application uses.
 */
module Seqs {

  /** `xs.filter(p)`: the elements satisfying `p`, in their original order. */
  function Filter<T(!new)>(p: T -> bool, xs: seq<T>): (r: seq<T>)
    ensures |r| <= |xs|
    ensures forall x :: x in r <==> x in xs && p(x)
    ensures forall i :: 0 <= i < |r| ==> p(r[i])
    decreases |xs|
  {
    if xs == [] then []
    else (if p(xs[0]) then [xs[0]] else []) + Filter(p, xs[1..])
  }

  /** The conjunction of two predicates. */
  function And<T(!new)>(p: T -> bool, q: T -> bool): T -> bool {
    x => p(x) && q(x)
  }

  /** The negation of a predicate. */
  function Not<T(!new)>(p: T -> bool): T -> bool {
    x => !p(x)
  }

  /** Filtering distributes over concatenation: relative order is kept. */
  lemma {:induction false} FilterConcat<T(!new)>(p: T -> bool, xs: seq<T>, ys: seq<T>)
    ensures Filter(p, xs + ys) == Filter(p, xs) + Filter(p, ys)
    decreases |xs|
  {
    if xs == [] {
      assert xs + ys == ys;
    } else {
      assert (xs + ys)[1..] == xs[1..] + ys;
      FilterConcat(p, xs[1..], ys);
    }
  }

  /** A filter that every element passes is the identity. */
  lemma {:induction false} FilterAllPass<T(!new)>(p: T -> bool, xs: seq<T>)
    requires forall i :: 0 <= i < |xs| ==> p(xs[i])
    ensures Filter(p, xs) == xs
    decreases |xs|
  {
    if xs != [] {
      FilterAllPass(p, xs[1..]);
    }
  }

  /** A filter equals its input exactly when every element passes. */
  lemma FilterIsIdentityIff<T(!new)>(p: T -> bool, xs: seq<T>)
    ensures Filter(p, xs) == xs <==> forall i :: 0 <= i < |xs| ==> p(xs[i])
  {
    if forall i :: 0 <= i < |xs| ==> p(xs[i]) {
      FilterAllPass(p, xs);
    }
  }

  /** Filtering twice with the same predicate is filtering once. */
  lemma FilterIdempotent<T(!new)>(p: T -> bool, xs: seq<T>)
    ensures Filter(p, Filter(p, xs)) == Filter(p, xs)
  {
    FilterAllPass(p, Filter(p, xs));
  }

  /** Two successive filters are one filter by the conjunction. */
  lemma {:induction false} FilterFilter<T(!new)>(p: T -> bool, q: T -> bool, xs: seq<T>)
    ensures Filter(q, Filter(p, xs)) == Filter(And(p, q), xs)
    decreases |xs|
  {
    if xs != [] {
      var head := if p(xs[0]) then [xs[0]] else [];
      FilterConcat(q, head, Filter(p, xs[1..]));
      FilterFilter(p, q, xs[1..]);
    }
  }

  /** Two predicates that agree on every element select the same elements. */
  lemma {:induction false} FilterExt<T(!new)>(p: T -> bool, q: T -> bool, xs: seq<T>)
    requires forall i :: 0 <= i < |xs| ==> p(xs[i]) == q(xs[i])
    ensures Filter(p, xs) == Filter(q, xs)
    decreases |xs|
  {
    if xs != [] {
      FilterExt(p, q, xs[1..]);
    }
  }

  /** Every element either passes or fails: the two selections partition the input. */
  lemma {:induction false} FilterPartition<T(!new)>(p: T -> bool, xs: seq<T>)
    ensures |Filter(p, xs)| + |Filter(Not(p), xs)| == |xs|
    decreases |xs|
  {
    if xs != [] {
      FilterPartition(p, xs[1..]);
    }
  }
}

=== FILE: sheet_export.dfy ===
/**
 * `exportToExcel`: the ledger as an array of rows (header first), the
 * per-cell style and number-format dispatch, the sheet settings (column
 * widths, frozen header, auto-filter) and the download name. The workbook
 * bytes, the style objects' contents and the download itself are not part
 * of this model: a style is named by which of the five style objects a
 * cell receives.
 */
module SheetExport {
  import opened Wrappers
  import opened Text
  import opened Expenses

  /** A cell value handed to the sheet builder: a string or a number. */
  datatype CellValue = Str(s: string) | Num(x: real)

  /** The five style objects of the export. */
  datatype Style = HeaderStyle | DataStyle | ZebraStyle | ProfitStyle | LossStyle

  /** A created cell: its value, its style and its number format (`z`), if any. */
  datatype Cell = Cell(v: CellValue, s: Style, z: Option<string>)

  /**
   * A worksheet: the styled grid (an absent cell is one the builder never
   * created), the column widths, the number of frozen rows and the
   * auto-filter range.
   */
  datatype Sheet = Sheet(
    cells: seq<seq<Option<Cell>>>,
    widths: seq<nat>,
    frozenRows: nat,
    autoFilter: string)

  /** The download: file name, MIME type, sheet name and sheet. */
  datatype Download = Download(fileName: string, mimeType: string, sheetName: string, sheet: Sheet)

  const Headers: seq<string> := ["Title", "Category", "Date", "Profit", "Loss", "Notes"]

  const CurrencyFormat: string := "\"\U{20B9}\"#,##0.00"
  const DateFormat: string := "dd-mm-yyyy"
  const MimeType: string := "application/vnd.openxmlformats-officedocument.spreadsheetml.sheet"
  const SheetName: string := "Expenses"

  // ---------------------------------------------------------------------------
  // The array of rows
  // ---------------------------------------------------------------------------

  /** A JavaScript value that may be `null`: such a cell is not created. */
  function OptStr(s: Option<string>): Option<CellValue> {
    match s
    case None => None
    case Some(t) => Some(Str(t))
  }

  function HeaderRow(): (row: seq<Option<CellValue>>)
    ensures |row| == |Headers|
  {
    seq(|Headers|, c requires 0 <= c < |Headers| => Some(Str(Headers[c])))
  }

  /** `[title, category, date, profit, loss, notes]` of one entry. */
  function RowOf(e: Entry): (row: seq<Option<CellValue>>)
    ensures |row| == |Headers|
  {
    [Some(Str(e.title)), Some(Str(e.category)), Some(Str(e.date)),
     Some(Num(e.profit)), Some(Num(e.loss)), OptStr(e.notes)]
  }

  /** `[headers, ...expenses.map(row)]` */
  function Grid(expenses: seq<Entry>): (g: seq<seq<Option<CellValue>>>)
    ensures |g| == |expenses| + 1
    ensures g[0] == HeaderRow()
    ensures forall i :: 0 <= i < |expenses| ==> g[i + 1] == RowOf(expenses[i])
    ensures forall r :: 0 <= r < |g| ==> |g[r]| == |Headers|
  {
    [HeaderRow()] + seq(|expenses|, i requires 0 <= i < |expenses| => RowOf(expenses[i]))
  }

  // ---------------------------------------------------------------------------
  // Style and number-format dispatch
  // ---------------------------------------------------------------------------

  /**
   * The body of the styling loop for the present cell at row `r`, column `c`,
   * in the order the assignments happen: the header row stops at its style;
   * a data row takes the zebra or plain style by the parity of `r`, then the
   * profit and loss columns replace it (with the currency format), then the
   * date column gets the date format on top of whatever style it has.
   */
  function StyleCell(r: nat, c: nat, v: CellValue): (cell: Cell)
    ensures cell.v == v
    ensures r == 0 ==> cell.s == HeaderStyle && cell.z == None
    ensures r > 0 ==> (cell.z == Some(CurrencyFormat) <==> c == 3 || c == 4)
    ensures r > 0 ==> (cell.z == Some(DateFormat) <==> c == 2)
    ensures r > 0 && c == 3 ==> cell.s == ProfitStyle
    ensures r > 0 && c == 4 ==> cell.s == LossStyle
    ensures r > 0 && c != 3 && c != 4 ==> cell.s == (if r % 2 == 0 then ZebraStyle else DataStyle)
  {
    if r == 0 then Cell(v, HeaderStyle, None)
    else
      var rowStyle := if r % 2 == 0 then ZebraStyle else DataStyle;
      var afterProfit := if c == 3 then Cell(v, ProfitStyle, Some(CurrencyFormat)) else Cell(v, rowStyle, None);
      var afterLoss := if c == 4 then Cell(v, LossStyle, Some(CurrencyFormat)) else afterProfit;
      if c == 2 then afterLoss.(z := Some(DateFormat)) else afterLoss
  }

  /** One row of the styling loop: absent cells are skipped. */
  function StyleRow(r: nat, row: seq<Option<CellValue>>): (cells: seq<Option<Cell>>)
    ensures |cells| == |row|
    ensures forall c :: 0 <= c < |row| ==> (cells[c].Some? <==> row[c].Some?)
  {
    seq(|row|, c requires 0 <= c < |row| =>
      match row[c]
      case None => None
      case Some(v) => Some(StyleCell(r, c, v)))
  }

  /** The loop over the whole range, row by row. */
  function StyleGrid(g: seq<seq<Option<CellValue>>>): (cells: seq<seq<Option<Cell>>>)
    ensures |cells| == |g|
    ensures forall r :: 0 <= r < |g| ==> cells[r] == StyleRow(r, g[r])
  {
    seq(|g|, r requires 0 <= r < |g| => StyleRow(r, g[r]))
  }

  /** `headers.map(h => ({ wch: h.length + 15 }))` */
  function ColumnWidths(): (w: seq<nat>)
    ensures |w| == |Headers|
    ensures w == [20, 23, 19, 21, 19, 20]
  {
    seq(|Headers|, c requires 0 <= c < |Headers| => |Headers[c]| + 15)
  }

  /** The letter of a column below 26. */
  function ColumnLetter(c: nat): char
    requires c < 26
  {
    ('A' as int + c) as char
  }

  /** `encode_range` of the range from A1 to column F of the last row. */
  function RangeRef(rowCount: nat): (ref: string)
    requires rowCount >= 1
    ensures |ref| > 4 && ref[..4] == "A1:F"
    ensures AllDigits(ref[4..]) && DigitsValue(ref[4..]) == rowCount
  {
    NatToStringRoundTrip(rowCount);
    [ColumnLetter(0)] + "1:" + [ColumnLetter(|Headers| - 1)] + NatToString(rowCount)
  }

  /** `exportToExcel(expenses)`: the sheet it builds and the download it triggers. */
  function Export(expenses: seq<Entry>, nowMillis: nat): (d: Download)
    ensures |d.sheet.cells| == |expenses| + 1
    ensures d.sheet.frozenRows == 1
    ensures d.sheet.widths == [20, 23, 19, 21, 19, 20]
    ensures d.sheet.autoFilter == "A1:F" + NatToString(|expenses| + 1)
    ensures d.sheetName == "Expenses"
    ensures d.fileName == FileName(nowMillis) && d.mimeType == MimeType
  {
    var g := Grid(expenses);
    Download(FileName(nowMillis), MimeType, SheetName,
             Sheet(StyleGrid(g), ColumnWidths(), 1, RangeRef(|g|)))
  }

  /** `expenses_<epoch millis>.xlsx` */
  function FileName(nowMillis: nat): (name: string)
    ensures |name| >= 15
    ensures name[..9] == "expenses_"
    ensures name[|name| - 5..] == ".xlsx"
  {
    "expenses_" + NatToString(nowMillis) + ".xlsx"
  }

  // ---------------------------------------------------------------------------
  // Properties
  // ---------------------------------------------------------------------------

  /** Row 0 is exactly the six headers, each with the header style and no format. */
  lemma HeaderRowStyled(expenses: seq<Entry>, nowMillis: nat)
    ensures var cells := Export(expenses, nowMillis).sheet.cells;
      |cells[0]| == 6 &&
      forall c :: 0 <= c < 6 ==> cells[0][c] == Some(Cell(Str(Headers[c]), HeaderStyle, None))
  {
  }

  /** Data cells: which style and format each column receives, by row parity. */
  lemma DataCellStyled(expenses: seq<Entry>, nowMillis: nat, i: nat, c: nat)
    requires i < |expenses| && c < 6
    ensures var cells := Export(expenses, nowMillis).sheet.cells;
      var v := RowOf(expenses[i])[c];
      var rowStyle := if (i + 1) % 2 == 0 then ZebraStyle else DataStyle;
      && (cells[i + 1][c].Some? <==> v.Some?)
      && (v.Some? ==> cells[i + 1][c].value.v == v.value)
      && (v.Some? && c == 3 ==> cells[i + 1][c].value.s == ProfitStyle && cells[i + 1][c].value.z == Some(CurrencyFormat))
      && (v.Some? && c == 4 ==> cells[i + 1][c].value.s == LossStyle && cells[i + 1][c].value.z == Some(CurrencyFormat))
      && (v.Some? && c == 2 ==> cells[i + 1][c].value.s == rowStyle && cells[i + 1][c].value.z == Some(DateFormat))
      && (v.Some? && c in {0, 1, 5} ==> cells[i + 1][c].value.s == rowStyle && cells[i + 1][c].value.z == None)
  {
  }

  /** The first data row (absolute row 1) is plain, the second zebra. */
  lemma FirstDataRowPlain(expenses: seq<Entry>, nowMillis: nat)
    requires |expenses| >= 2
    ensures Export(expenses, nowMillis).sheet.cells[1][0].value.s == DataStyle
    ensures Export(expenses, nowMillis).sheet.cells[2][0].value.s == ZebraStyle
  {
  }

  /** A null note leaves its cell out; it is not styled as an empty cell. */
  lemma NullNotesSkipped(expenses: seq<Entry>, nowMillis: nat, i: nat)
    requires i < |expenses| && expenses[i].notes.None?
    ensures Export(expenses, nowMillis).sheet.cells[i + 1][5] == None
  {
  }

  /** No guard in the serializer: no entries still gives the styled header row. */
  lemma EmptyExportIsHeaderOnly(nowMillis: nat)
    ensures |Export([], nowMillis).sheet.cells| == 1
    ensures Export([], nowMillis).sheet.autoFilter == "A1:F1"
  {
  }

  // ---------------------------------------------------------------------------
  // Reading the sheet back
  // ---------------------------------------------------------------------------

  /** The exported columns of one entry. */
  datatype Fields = Fields(title: string, category: string, date: string,
                           profit: real, loss: real, notes: Option<string>)

  function FieldsOf(e: Entry): Fields {
    Fields(e.title, e.category, e.date, e.profit, e.loss, e.notes)
  }

  function ReadStr(c: Option<Cell>): Option<string> {
    match c
    case Some(Cell(Str(s), _, _)) => Some(s)
    case _ => None
  }

  function ReadNum(c: Option<Cell>): Option<real> {
    match c
    case Some(Cell(Num(x), _, _)) => Some(x)
    case _ => None
  }

  /** Reads one data row back; `None` when a required cell is missing or mistyped. */
  function ReadRow(row: seq<Option<Cell>>): Option<Fields> {
    if |row| != 6 then None
    else
      match (ReadStr(row[0]), ReadStr(row[1]), ReadStr(row[2]), ReadNum(row[3]), ReadNum(row[4]))
      case (Some(t), Some(cat), Some(d), Some(p), Some(l)) => Some(Fields(t, cat, d, p, l, ReadStr(row[5])))
      case _ => None
  }

  /** One styled data row reads back as the exported columns of its entry. */
  lemma RowRoundTrip(r: nat, e: Entry)
    requires r >= 1
    ensures ReadRow(StyleRow(r, RowOf(e))) == Some(FieldsOf(e))
  {
    var row := StyleRow(r, RowOf(e));
    assert ReadStr(row[0]) == Some(e.title);
    assert ReadStr(row[1]) == Some(e.category);
    assert ReadStr(row[2]) == Some(e.date);
    assert ReadNum(row[3]) == Some(e.profit);
    assert ReadNum(row[4]) == Some(e.loss);
    assert ReadStr(row[5]) == e.notes;
  }

  /** Data row `i + 1` of the sheet is entry `i`'s row, styled. */
  lemma ExportRow(expenses: seq<Entry>, nowMillis: nat, i: nat)
    requires i < |expenses|
    ensures Export(expenses, nowMillis).sheet.cells[i + 1] == StyleRow(i + 1, RowOf(expenses[i]))
  {
    var g := Grid(expenses);
    assert Export(expenses, nowMillis).sheet.cells == StyleGrid(g);
    assert g[i + 1] == RowOf(expenses[i]);
  }

  /** Export round trip: the data rows, in order, read back as the entries' exported columns. */
  lemma ExportRoundTrip(expenses: seq<Entry>, nowMillis: nat)
    ensures var cells := Export(expenses, nowMillis).sheet.cells;
      forall i :: 0 <= i < |expenses| ==> ReadRow(cells[i + 1]) == Some(FieldsOf(expenses[i]))
  {
    forall i | 0 <= i < |expenses|
      ensures ReadRow(Export(expenses, nowMillis).sheet.cells[i + 1]) == Some(FieldsOf(expenses[i]))
    {
      ExportRow(expenses, nowMillis, i);
      RowRoundTrip(i + 1, expenses[i]);
    }
  }

  /** The download name carries the clock reading, which reads back from it. */
  lemma FileNameRoundTrip(nowMillis: nat)
    ensures var name := FileName(nowMillis);
      AllDigits(name[9..|name| - 5]) && DigitsValue(name[9..|name| - 5]) == nowMillis
  {
    var name := FileName(nowMillis);
    assert name[9..|name| - 5] == NatToString(nowMillis);
    NatToStringRoundTrip(nowMillis);
  }
}

=== FILE: text.dfy ===
/**
 * The JavaScript string operations the pages rely on, on `seq<char>`:
 * ASCII case mapping, `includes`, `slice`, `padStart` and the decimal
 * rendering of a non-negative integer (`n.toString()`).
 */
module Text {

  predicate IsDigit(c: char) {
    '0' <= c <= '9'
  }

  predicate AllDigits(s: string) {
    forall i :: 0 <= i < |s| ==> IsDigit(s[i])
  }

  function Min(a: int, b: int): int {
    if a <= b then a else b
  }

  function Max(a: int, b: int): int {
    if a <= b then b else a
  }

  // ---------------------------------------------------------------------------
  // Case mapping (ASCII letters only)
  // ---------------------------------------------------------------------------

  function LowerChar(c: char): char {
    if 'A' <= c <= 'Z' then (c as int + 32) as char else c
  }

  function UpperChar(c: char): char {
    if 'a' <= c <= 'z' then (c as int - 32) as char else c
  }

  /** `s.toLowerCase()` */
  function Lower(s: string): (r: string)
    ensures |r| == |s|
    ensures forall i :: 0 <= i < |s| ==> r[i] == LowerChar(s[i])
  {
    seq(|s|, i requires 0 <= i < |s| => LowerChar(s[i]))
  }

  /** `s.toUpperCase()` */
  function Upper(s: string): (r: string)
    ensures |r| == |s|
    ensures forall i :: 0 <= i < |s| ==> r[i] == UpperChar(s[i])
  {
    seq(|s|, i requires 0 <= i < |s| => UpperChar(s[i]))
  }

  /** Lower-casing a lower-cased string changes nothing. */
  lemma LowerIdempotent(s: string)
    ensures Lower(Lower(s)) == Lower(s)
  {
  }

  lemma LowerEmpty()
    ensures Lower("") == ""
  {
  }

  // ---------------------------------------------------------------------------
  // Substring search
  // ---------------------------------------------------------------------------

  /** `t` occurs in `s` starting at index `i`. */
  predicate OccursAt(s: string, t: string, i: int) {
    0 <= i && i + |t| <= |s| && s[i..i + |t|] == t
  }

  /** `s.includes(t)`: `t` occurs in `s` at some position. */
  predicate Contains(s: string, t: string) {
    exists i | 0 <= i <= |s| - |t| :: OccursAt(s, t, i)
  }

  /** The empty string occurs in every string (`s.includes("")` is true). */
  lemma ContainsEmpty(s: string)
    ensures Contains(s, "")
  {
    assert OccursAt(s, "", 0);
  }

  /** An occurrence at a known position. */
  lemma ContainsAt(s: string, t: string, i: nat)
    requires i + |t| <= |s| && s[i..i + |t|] == t
    ensures Contains(s, t)
  {
    assert OccursAt(s, t, i);
  }

  /** An occurrence inside a part is an occurrence in the whole. */
  lemma ContainsInConcat(a: string, s: string, b: string, t: string)
    requires Contains(s, t)
    ensures Contains(a + s + b, t)
  {
    var i :| 0 <= i <= |s| - |t| && OccursAt(s, t, i);
    assert (a + s + b)[|a| + i..|a| + i + |t|] == s[i..i + |t|];
    assert OccursAt(a + s + b, t, |a| + i);
  }

  // ---------------------------------------------------------------------------
  // slice and padStart
  // ---------------------------------------------------------------------------

  /**
   * `s.slice(a, b)` on a string or an array, for `0 <= a <= b`: both ends
   * are clamped to the length, so a range past the end yields fewer
   * elements or none.
   */
  function Slice<T>(s: seq<T>, a: nat, b: nat): (r: seq<T>)
    requires a <= b
    ensures |r| == if |s| <= a then 0 else Min(b, |s|) - a
    ensures |r| <= b - a
    ensures forall i :: 0 <= i < |r| ==> r[i] == s[a + i]
  {
    if |s| <= a then [] else s[a..Min(b, |s|)]
  }

  /** A slice only reads the elements before its end. */
  lemma SliceOfPrefix<T>(s: seq<T>, a: nat, b: nat, n: nat)
    requires a <= b <= n <= |s|
    ensures Slice(s[..n], a, b) == Slice(s, a, b)
  {
  }

  /** `s.padStart(n, c)`: `c` repeated on the left up to length `n`; never truncates. */
  function PadStart(s: string, n: nat, c: char): (r: string)
    ensures |r| == Max(|s|, n)
    ensures r[|r| - |s|..] == s
    ensures forall i :: 0 <= i < |r| - |s| ==> r[i] == c
  {
    if |s| >= n then s else seq(n - |s|, _ => c) + s
  }

  // ---------------------------------------------------------------------------
  // Decimal digits
  // ---------------------------------------------------------------------------

  function DigitChar(d: nat): (c: char)
    requires d < 10
    ensures IsDigit(c)
  {
    ('0' as int + d) as char
  }

  function DigitValue(c: char): (d: nat)
    requires IsDigit(c)
    ensures d < 10
  {
    c as int - '0' as int
  }

  function Pow10(k: nat): (r: nat)
    ensures r >= 1
  {
    if k == 0 then 1 else 10 * Pow10(k - 1)
  }

  /** `n.toString()` for a non-negative integer: its decimal digits, no sign. */
  function NatToString(n: nat): (r: string)
    ensures 1 <= |r|
    ensures AllDigits(r)
    decreases n
  {
    if n < 10 then [DigitChar(n)]
    else NatToString(n / 10) + [DigitChar(n % 10)]
  }

  /** The number a string of decimal digits denotes (leading zeros allowed). */
  function DigitsValue(s: string): nat
    requires AllDigits(s)
    decreases |s|
  {
    if s == "" then 0
    else DigitsValue(s[..|s| - 1]) * 10 + DigitValue(s[|s| - 1])
  }

  /** Reading back the decimal rendering of `n` gives `n`. */
  lemma {:induction false} NatToStringRoundTrip(n: nat)
    ensures DigitsValue(NatToString(n)) == n
    decreases n
  {
    var s := NatToString(n);
    if n >= 10 {
      assert s[..|s| - 1] == NatToString(n / 10);
      NatToStringRoundTrip(n / 10);
    }
  }

  /** A number below `10^k` has at most `k` digits. */
  lemma {:induction false} NatToStringLength(n: nat, k: nat)
    requires n < Pow10(k)
    ensures |NatToString(n)| <= Max(k, 1)
    decreases n
  {
    if n >= 10 {
      assert k >= 1;
      NatToStringLength(n / 10, k - 1);
    }
  }

  /** A number at or above `10^(k-1)` has at least `k` digits. */
  lemma {:induction false} NatToStringMinLength(n: nat, k: nat)
    requires 1 <= k && Pow10(k - 1) <= n
    ensures k <= |NatToString(n)|
    decreases n
  {
    if k > 1 {
      assert n >= 10;
      NatToStringMinLength(n / 10, k - 1);
    }
  }

  /** Leading zeros do not change the value of a digit string. */
  lemma {:induction false} DigitsValueLeadingZeros(z: nat, s: string)
    requires AllDigits(s)
    ensures AllDigits(seq(z, _ => '0') + s)
    ensures DigitsValue(seq(z, _ => '0') + s) == DigitsValue(s)
    decreases |s|
  {
    var zs: string := seq(z, _ => '0');
    var t := zs + s;
    if s == "" {
      assert t == zs;
      ZerosValue(z);
    } else {
      assert t[..|t| - 1] == zs + s[..|s| - 1];
      DigitsValueLeadingZeros(z, s[..|s| - 1]);
    }
  }

  lemma {:induction false} ZerosValue(z: nat)
    ensures AllDigits(seq(z, _ => '0'))
    ensures DigitsValue(seq(z, _ => '0')) == 0
    decreases z
  {
    if z > 0 {
      var zs: string := seq(z, _ => '0');
      assert zs[..z - 1] == seq(z - 1, _ => '0');
      ZerosValue(z - 1);
    }
  }

  /** Zero-padding the decimal rendering of `n` and reading it back gives `n`. */
  lemma PaddedRoundTrip(n: nat, width: nat)
    ensures AllDigits(PadStart(NatToString(n), width, '0'))
    ensures DigitsValue(PadStart(NatToString(n), width, '0')) == n
  {
    var s := NatToString(n);
    NatToStringRoundTrip(n);
    if |s| < width {
      DigitsValueLeadingZeros(width - |s|, s);
    }
  }

  /** A number below `10^k` zero-padded to `k` places takes exactly `k` characters. */
  lemma PaddedLength(n: nat, k: nat)
    requires 1 <= k && n < Pow10(k)
    ensures |PadStart(NatToString(n), k, '0')| == k
  {
    NatToStringLength(n, k);
  }

  /** Digit strings of equal length denote the same number only if they are equal. */
  lemma {:induction false} DigitsValueInjective(s: string, t: string)
    requires AllDigits(s) && AllDigits(t) && |s| == |t|
    requires DigitsValue(s) == DigitsValue(t)
    ensures s == t
    decreases |s|
  {
    if s != "" {
      var n := |s| - 1;
      assert DigitValue(s[n]) == DigitValue(t[n]);
      DigitsValueInjective(s[..n], t[..n]);
      assert s == s[..n] + [s[n]];
      assert t == t[..n] + [t[n]];
    }
  }
}

=== FILE: tools_directory.dfy ===
/**
 * The tools directory: a constant table of tools, a search box matched
 * against name, description and tags, and category chips. The search is
 * case-insensitive and combined with the chosen category; "all" lets every
 * category through.
 */
module ToolsDirectory {
  import opened Wrappers
  import opened Text
  import opened Seqs

  datatype Icon = Zap | Palette | Code | BarChart3 | Video | Settings

  datatype Chip = Chip(id: string, name: string, icon: Icon, count: nat)

  datatype Tool = Tool(id: nat, name: string, description: string, category: string,
                       link: string, tags: seq<string>)

  const AllTools := "all"

  /** The category chips with their hard-coded counts (the chip bar itself is commented out in the page). */
  const Chips: seq<Chip> := [
    Chip("all", "All Tools", Zap, 24),
    Chip("design", "Design", Palette, 6),
    Chip("development", "Development", Code, 8),
    Chip("productivity", "Productivity", BarChart3, 5),
    Chip("media", "Media", Video, 3),
    Chip("utilities", "Utilities", Settings, 2)]

  const Tools: seq<Tool> := [
    Tool(1, "Image Editor", "Compress, Resize & Edit Pictures", "media", "https://image.pi7.org",
         ["Passport Photo Maker", "Resize Image", "Convert Image", "Compress Image"]),
    Tool(2, "Erase.bg", "Remove Background From Images For Free", "media", "https://www.erase.bg",
         ["Change Background", "Remove Background API"]),
    Tool(3, "PDF Editor", "Easy, pleasant and productive PDF editor", "utilities", "https://www.sejda.com",
         ["Compress PDF", "Edit PDF", "Extract Pages", "Merge PDFs", "Crop PDF"]),
    Tool(4, "Cutout.Pro", "Photo Enhancer", "media",
         "https://www.cutout.pro/photo-enhancer-sharpener-upscaler/upload",
         ["Photo Enhancer", "Quality", "High Quality Image"]),
    Tool(5, "Photo & Signature Resize", "Photo & Signature Resize", "utilities",
         "https://skpancenter.co.in/resize", ["Photo Resize", "Signature Resize", "PDF Merge"])]

  predicate Has(field: string, query: string) {
    Contains(Lower(field), Lower(query))
  }

  /** Name, description or some tag contains the query, ignoring case. */
  predicate TextMatch(t: Tool, query: string) {
    Has(t.name, query) || Has(t.description, query) || exists i :: 0 <= i < |t.tags| && Has(t.tags[i], query)
  }

  predicate Shown(t: Tool, query: string, category: string) {
    TextMatch(t, query) && (category == AllTools || t.category == category)
  }

  function ShownFilter(query: string, category: string): Tool -> bool {
    (t: Tool) => Shown(t, query, category)
  }

  /** `filteredTools` over a list of tools. */
  function Filtered(tools: seq<Tool>, query: string, category: string): (r: seq<Tool>)
    ensures |r| <= |tools|
    ensures forall t :: t in r <==> t in tools && TextMatch(t, query) && (category == AllTools || t.category == category)
  {
    Filter(ShownFilter(query, category), tools)
  }

  /** The empty query matches every tool. */
  lemma EmptyQueryMatches(t: Tool)
    ensures TextMatch(t, "")
  {
    ContainsEmpty(Lower(t.name));
  }

  function CategoryFilter(category: string): Tool -> bool {
    (t: Tool) => category == AllTools || t.category == category
  }

  /** With an empty query only the category chip decides. */
  lemma EmptyQueryIsCategory(tools: seq<Tool>, category: string)
    ensures Filtered(tools, "", category) == Filter(CategoryFilter(category), tools)
  {
    forall t | t in tools ensures ShownFilter("", category)(t) == CategoryFilter(category)(t) {
      EmptyQueryMatches(t);
    }
    FilterExt(ShownFilter("", category), CategoryFilter(category), tools);
  }

  /** The page as it opens (empty query, "all"): every tool, in table order. */
  lemma OpeningShowsAll(tools: seq<Tool>)
    ensures Filtered(tools, "", AllTools) == tools
  {
    EmptyQueryIsCategory(tools, AllTools);
    FilterAllPass(CategoryFilter(AllTools), tools);
  }

  /** Filtering the result again changes nothing. */
  lemma FilterIdempotentOnTools(tools: seq<Tool>, query: string, category: string)
    ensures Filtered(Filtered(tools, query, category), query, category) == Filtered(tools, query, category)
  {
    FilterIdempotent(ShownFilter(query, category), tools);
  }

  /** The result keeps table order. */
  lemma FilterKeepsOrder(xs: seq<Tool>, ys: seq<Tool>, query: string, category: string)
    ensures Filtered(xs + ys, query, category) == Filtered(xs, query, category) + Filtered(ys, query, category)
  {
    FilterConcat(ShownFilter(query, category), xs, ys);
  }

  /** A query matching only a tag still finds the tool: "passport" finds the image editor. */
  lemma TagSearch()
    ensures Tools[0] in Filtered(Tools, "passport", AllTools)
  {
    var tag := Tools[0].tags[0];
    assert Lower(tag)[..8] == "passport";
    assert Lower("passport") == "passport";
    assert OccursAt(Lower(tag), Lower("passport"), 0);
    assert Has(tag, "passport");
    assert TextMatch(Tools[0], "passport");
  }

  /** `getCategoryIcon`: the first chip with that id, or Zap. */
  function CategoryIcon(id: string): (icon: Icon)
    ensures forall i :: 0 <= i < |Chips| && Chips[i].id == id ==> icon == Chips[i].icon
    ensures (forall i :: 0 <= i < |Chips| ==> Chips[i].id != id) ==> icon == Zap
  {
    assert DistinctIds(Chips);
    FindIcon(Chips, id)
  }

  predicate DistinctIds(chips: seq<Chip>) {
    forall i, j :: 0 <= i < j < |chips| ==> chips[i].id != chips[j].id
  }

  /** `chips.find(c => c.id === id)`'s icon, Zap when there is none. */
  function FindIcon(chips: seq<Chip>, id: string): (icon: Icon)
    ensures forall i :: 0 <= i < |chips| && chips[i].id == id && (forall j :: 0 <= j < i ==> chips[j].id != id)
              ==> icon == chips[i].icon
    ensures DistinctIds(chips) ==> forall i :: 0 <= i < |chips| && chips[i].id == id ==> icon == chips[i].icon
    ensures (forall i :: 0 <= i < |chips| ==> chips[i].id != id) ==> icon == Zap
    decreases |chips|
  {
    if chips == [] then Zap
    else if chips[0].id == id then chips[0].icon
    else
      var icon := FindIcon(chips[1..], id);
      assert forall i :: 1 <= i < |chips| ==> chips[i] == chips[1..][i - 1];
      icon
  }

  /** Every tool's category has its own chip, so none falls back to Zap except "all"'s own. */
  lemma ToolCategoriesHaveChips()
    ensures forall t :: t in Tools ==> exists i :: 1 <= i < |Chips| && Chips[i].id == t.category
    ensures CategoryIcon("media") == Video && CategoryIcon("utilities") == Settings
    ensures CategoryIcon("finance") == Zap
  {
    assert Chips[4].id == "media" && Chips[5].id == "utilities";
  }

  // ---------------------------------------------------------------------------
  // The results line
  // ---------------------------------------------------------------------------

  /** `({filteredTools.length} tools found)` for an empty query and a category. */
  function ToolCount(id: string): (n: nat)
    ensures n <= |Tools|
  {
    |Filtered(Tools, "", id)|
  }

  function CategoriesOf(tools: seq<Tool>): (cs: seq<string>)
    ensures |cs| == |tools| && forall i :: 0 <= i < |tools| ==> cs[i] == tools[i].category
  {
    seq(|tools|, i requires 0 <= i < |tools| => tools[i].category)
  }

  /** How often `c` occurs in `cs`. */
  function Occurrences(c: string, cs: seq<string>): nat
    decreases |cs|
  {
    if cs == [] then 0 else (if cs[0] == c then 1 else 0) + Occurrences(c, cs[1..])
  }

  /** A category chip shows exactly as many tools as carry its category. */
  lemma {:induction false} CategoryCount(tools: seq<Tool>, id: string)
    requires id != AllTools
    ensures |Filter(CategoryFilter(id), tools)| == Occurrences(id, CategoriesOf(tools))
    decreases |tools|
  {
    if tools != [] {
      assert CategoriesOf(tools)[1..] == CategoriesOf(tools[1..]);
      CategoryCount(tools[1..], id);
    }
  }

  /** The categories of the table's tools, in table order. */
  const ToolCategoryList: seq<string> := ["media", "media", "utilities", "media", "utilities"]

  lemma ToolCategories()
    ensures CategoriesOf(Tools) == ToolCategoryList
  {
  }

  /** Counting a category in the table's category list. */
  lemma CategoryOccurrences()
    ensures var cs := ToolCategoryList;
      Occurrences("design", cs) == 0 && Occurrences("development", cs) == 0
      && Occurrences("productivity", cs) == 0 && Occurrences("media", cs) == 3
      && Occurrences("utilities", cs) == 2
  {
  }

  /** A category's count with an empty query, read off the table's category list. */
  lemma CategoryToolCount(id: string)
    requires id != AllTools
    ensures ToolCount(id) == Occurrences(id, ToolCategoryList)
  {
    ToolCategories();
    CountOf(id);
  }

  /** How many tools each category lists with an empty query. */
  lemma ToolCounts()
    ensures ToolCount("all") == 5 && ToolCount("design") == 0 && ToolCount("development") == 0
    ensures ToolCount("productivity") == 0 && ToolCount("media") == 3 && ToolCount("utilities") == 2
  {
    OpeningShowsAll(Tools);
    CategoryOccurrences();
    CategoryToolCount("design");
    CategoryToolCount("development");
    CategoryToolCount("productivity");
    CategoryToolCount("media");
    CategoryToolCount("utilities");
  }

  lemma CountOf(id: string)
    requires id != AllTools
    ensures ToolCount(id) == Occurrences(id, CategoriesOf(Tools))
  {
    EmptyQueryIsCategory(Tools, id);
    CategoryCount(Tools, id);
  }

  /** The heading above the count: "All Tools", or the selected category's chip name if any. */
  function ResultsHeading(selected: string): (h: Option<string>)
    ensures selected == AllTools ==> h == Some("All Tools")
    ensures selected != AllTools ==> (h.Some? <==> exists i :: 0 <= i < |Chips| && Chips[i].id == selected)
  {
    if selected == AllTools then Some("All Tools") else FindName(Chips, selected)
  }

  /** `chips.find(c => c.id === id)?.name`. */
  function FindName(chips: seq<Chip>, id: string): (name: Option<string>)
    ensures name.Some? <==> exists i :: 0 <= i < |chips| && chips[i].id == id
    ensures name.Some? ==> exists i :: 0 <= i < |chips| && chips[i].id == id && chips[i].name == name.value
    decreases |chips|
  {
    if chips == [] then None
    else if chips[0].id == id then Some(chips[0].name)
    else
      var r := FindName(chips[1..], id);
      assert r.Some? ==> exists i :: 0 <= i < |chips| && chips[i].id == id && chips[i].name == r.value by {
        if r.Some? {
          var i :| 0 <= i < |chips[1..]| && chips[1..][i].id == id && chips[1..][i].name == r.value;
          assert chips[i + 1] == chips[1..][i];
        }
      }
      r
  }

  /** Every chip's id heads the results with that chip's own name, "all" included. */
  lemma HeadingMatchesChip(i: nat)
    requires i < |Chips|
    ensures ResultsHeading(Chips[i].id) == Some(Chips[i].name)
  {
    assert DistinctIds(Chips);
  }
}

=== FILE: wrappers.dfy ===
/** Optional values: a JavaScript `null`/`undefined` field or a missing lookup. */
module Wrappers {

  datatype Option<+T> = None | Some(value: T) {

    /** The value, or `default` when absent (JavaScript `x ?? default`). */
    function GetOr(default: T): T {
      match this
      case Some(v) => v
      case None => default
    }
  }
}
